=== FILE: README.md ===
# Dev-Env-MCP core in Dafny

A model of the process runner and the pip tooling of Dev-Env-MCP, a server that lets an agent
manage a Python virtual environment inside a workspace. The model covers:

- **Bounded capture** (`Capture`): what each reader thread of `runner.run` keeps of a child's
  stdout or stderr. It appends decoded chunks until a cap, keeps counting output time after the
  cap, and stops at the first empty read.
- **The supervisor** (`Supervisor`): one iteration of the polling loop of `runner.run` as a pure
  step over an observed tick. The checks run in this order: natural exit, success-marker
  detection, success-grace kill, idle timeout, hard timeout. The step is folded over a trace of
  ticks. The model also covers the final `wait` with its `kill_wait` escalation and the
  assembly of the `RunResult` (forced success gives 0, no return code gives 124, and
  `timed_out` is set only for the hard timeout).
- **Pip policy and commands** (`PipOps`): the option allowlist with its prefix matching, the
  `name` / `name==version` parser, and the verdict of the installed/absent verifiers. It also
  covers the argv, timeouts, idle timeouts and output caps of install, uninstall, list, show,
  check and freeze.
- **Workspace paths** (`Workspace`): `find_workspace_root`, which walks up to the nearest
  directory holding `pyproject.toml` or `.git`, and `resolve_in_workspace`, which joins,
  normalises and refuses paths outside the root.
- **Freeze report** (`Freeze`): the file content `freeze_to_file` writes and the package count
  it reports.

`Common` holds `Option`/`Result`. `Text` holds the Python string operations the code relies on,
with Python's exact `str.isspace` character set: `strip`, `in`, `startswith`, `endswith` and
prefix slicing `s[:n]`, including negative `n`. `Text.Find` is the first-occurrence search
inside `split("==", 1)` and `"==" in s` and inside pathlib's splitting on `/`; the code never
calls `str.find` itself.

Time is an abstract monotonic clock in whole ticks. The child process, the reader threads and
the clock become parameters: a trace of `Tick`s (what `poll()` returned, the clock, the text
captured so far, the shared `last_output`), the chunk sequences each reader got, and a
`WaitOutcome` for the final `p.wait(timeout=5)`. Filesystem probes are functions passed in
(`is_file`, "has a marker").

Two features that other parts of the program expect are absent from `runner.run`, and the
model follows `runner.run`:

- `config.py:24-29` configures a soft-verification schedule that ends in killing the process
  tree, and `_pip` passes `soft_verify`, the `soft_verify_*` tuning values and
  `soft_success_hints` (`pip_ops.py:118-125`). The signature of `run` (`runner.py:48-56`)
  accepts none of them, and its only kill is `p.kill()` of the single child. `run` detects
  success by substring markers with a grace period and nothing else (see Findings).
- The reasons `run` records are `success_grace_kill`, `idle_timeout`, `timeout` and
  `kill_wait` (`runner.py:115,122,129,140`), and `None` for a natural exit.

## Model

| member | source | states |
|---|---|---|
| Text.Find | dev_env_mcp/pip_ops.py:32-33 | `"==" in s` and the split position: found exactly when the text contains the separator, at an occurrence with none earlier |
| Text.SlicePrefix | dev_env_mcp/runner.py:158-159 | Python's `s[:n]` is a prefix of `s` of length `min(n, len)` for `n >= 0` and `max(0, len + n)` for negative `n` |
| Text.Strip | dev_env_mcp/pip_ops.py:29 | `str.strip()` removes exactly the leading and trailing whitespace: the result is a contiguous slice, only whitespace surrounds it, it starts and ends with non-whitespace, and it is empty iff the text is all whitespace |
| Text.StrippedOfUnique | dev_env_mcp/freeze.py:16 | exactly one text is a stripped form of a given text, and it is `str.strip()`'s result |
| Text.StripSurrounded | dev_env_mcp/pip_ops.py:34 | stripping text padded only by whitespace gives back the text itself when it starts and ends with non-whitespace |
| Text.StripEndsWith | dev_env_mcp/pip_ops.py:71 | `s.strip().endswith(c)` for a non-space `c` holds iff some occurrence of `c` in `s` is followed only by whitespace |
| Capture.Consumed | dev_env_mcp/runner.py:36-39 | the reader consumes exactly the chunks before the first empty read, in order, all non-empty |
| Capture.Append | dev_env_mcp/runner.py:40-45 | one read always records its time as the last output; once the buffer holds the cap nothing is appended; the length bookkeeping stays exact and within the cap |
| Capture.ReadStream | dev_env_mcp/runner.py:36-45 | the reader loop only ever appends to the buffer, at most one piece per chunk, and its length counter never decreases |
| Capture.Capture | dev_env_mcp/runner.py:29-46 | after reading a stream the captured text is exactly the first `max_chars` characters of everything read before end of stream; the length counter equals that text's length and stays within the cap; `last_output` is the time of the last non-empty chunk, or the start time |
| Capture.ReadStreamValid | dev_env_mcp/runner.py:42-45 | the buffer's length counter stays exact and within the cap for any number of chunks |
| Capture.AppendTake | dev_env_mcp/runner.py:42-45 | appending one chunk's `text[:remaining]` keeps the buffer equal to the capped prefix of all text read so far |
| Capture.ReadStreamText | dev_env_mcp/runner.py:36-45 | the captured text equals the capped prefix of the concatenation of the consumed chunks |
| Capture.ReadStreamLastOutput | dev_env_mcp/runner.py:40 | `last_output` ends at the arrival time of the last consumed chunk, including chunks read after the cap |
| Capture.FullBufferFrozen | dev_env_mcp/runner.py:42 | a buffer at its cap never grows or changes again |
| Supervisor.Detect | dev_env_mcp/runner.py:104-107 | the success time is set to the tick's clock on the first tick whose stdout plus stderr contains a marker, and never changes once set |
| Supervisor.Step | dev_env_mcp/runner.py:96-130 | a tick stops the loop as a natural exit iff `poll()` returned a code; one tick never records `kill_wait`; an idle kill needs an idle timeout that is neither `None` nor 0; polling continues only before the hard timeout; a set success time is kept; with a positive grace, no grace kill happens on the tick that first sees a marker |
| Supervisor.StepPriority | dev_env_mcp/runner.py:110-130 | while the child runs, a tick kills iff some kill condition holds, and then for the highest-priority one: success grace before idle timeout before hard timeout |
| Supervisor.LoopFrom | dev_env_mcp/runner.py:96-132 | the loop stops only at a tick of the trace |
| Supervisor.Loop | dev_env_mcp/runner.py:96-132 | the loop stops only at a tick of the trace, the child was still running at every earlier tick, it stops as a natural exit iff the child had exited at that tick, and a trace it polls through never showed an exit |
| Supervisor.FirstMarkerTick | dev_env_mcp/runner.py:104-107 | reference for marker detection: the first tick whose captured text holds a marker, with none before it |
| Supervisor.StepTracksMarker | dev_env_mcp/runner.py:104-107 | the success time carried by the loop is the clock of the first tick that showed a marker |
| Supervisor.LoopFromStopsAtFirstDecision | dev_env_mcp/runner.py:96-132 | from any tick on, the loop stops at the first tick that does not continue, with that tick's verdict, and otherwise keeps the reference success time |
| Supervisor.LoopStopsAtFirstDecision | dev_env_mcp/runner.py:96-132 | the loop polls past every tick that continues and stops at the first that does not, with its verdict; it is still running iff every tick continues |
| Supervisor.NaturalExitFirst | dev_env_mcp/runner.py:97-99 | the loop stops no later than the first tick on which the child has exited, and stops there without a kill; every kill happens while the child is still running |
| Supervisor.HardTimeoutStops | dev_env_mcp/runner.py:125-130 | the loop stops no later than the first tick at or past `timeout_sec` |
| Supervisor.GraceKillTiming | dev_env_mcp/runner.py:110-116 | a success-grace kill happens at least `success_grace_sec` after the first tick that showed a marker, and strictly after that tick when the grace is positive |
| Supervisor.GraceKillBy | dev_env_mcp/runner.py:103-116 | once a tick has shown a marker, the loop stops no later than the first tick `success_grace_sec` or more after it |
| Supervisor.IdleTimeoutStops | dev_env_mcp/runner.py:118-123 | with an armed idle timeout, the loop stops no later than the first tick that has gone `idle_timeout_sec` or more without output |
| Supervisor.IdleDisabled | dev_env_mcp/runner.py:118 | an idle timeout of `None` or 0 never kills |
| Supervisor.MarkerMaySpanStreams | dev_env_mcp/runner.py:105-106 | because stdout and stderr are concatenated before the search, a marker split across the two streams is detected |
| Supervisor.EscalatedReason | dev_env_mcp/runner.py:140 | `reason or "kill_wait"` keeps an earlier reason and supplies `kill_wait` when there is none |
| Supervisor.FinalWait | dev_env_mcp/runner.py:134-140 | after the final wait a return code is always known; a natural exit stays unkilled with no reason; a loop kill stays killed and keeps its reason whether or not the wait escalates |
| Supervisor.Assemble | dev_env_mcp/runner.py:145-163 | a forced success reports exit code 0 and no timeout; otherwise the child's code, or 124 without one; `timed_out` iff the reason is the hard timeout and the run was not forced; each output is exactly Python's `text[:cap]`: the first `cap` characters for a non-negative cap, all but the last `-cap` for a negative one |
| Supervisor.SliceKeepsCapture | dev_env_mcp/runner.py:158-159 | the final `[:max]` slice leaves a capture that already fits the cap unchanged |
| Supervisor.Run | dev_env_mcp/runner.py:48-163 | a result exists iff the loop stopped; stdout and stderr are the capped prefixes of what each stream produced; `kill_wait` is never recorded; `killed` iff a reason is recorded; `timed_out` iff the reason is the hard timeout |
| Supervisor.LoopNeverKillWait | dev_env_mcp/runner.py:96-132 | the polling loop never stops with `kill_wait` |
| Supervisor.RunOutcome | dev_env_mcp/runner.py:134-163 | a natural exit reports the child's own code, unkilled, no reason, no timeout; a loop kill reports killed with its reason, 0 for a grace kill and the final code otherwise, and a timeout iff the hard timeout fired |
| PipOps.FirstDisallowed | dev_env_mcp/pip_ops.py:18-20 | the scan finds the first option the policy rejects, with every earlier one allowed, or reports that all pass |
| PipOps.ValidateOptions | dev_env_mcp/pip_ops.py:17-20 | no error iff every option is either not dash-led or starts with an allowed prefix; otherwise the error names the first rejected option |
| PipOps.AllowlistIsLongOptions | dev_env_mcp/config.py:34-46 | every configured allowlist entry starts with `--` |
| PipOps.ShortOptionsRejected | dev_env_mcp/pip_ops.py:19 | against an allowlist of long options every single-dash item is rejected |
| PipOps.ConfiguredPolicyRejectsShortOptions | dev_env_mcp/config.py:34-46 | the configured policy rejects every single-dash option such as `-r` or `-U` |
| PipOps.AllowedByPrefix | dev_env_mcp/pip_ops.py:19 | matching is by prefix: anything appended to an allowed option is allowed too |
| PipOps.ParseSpec | dev_env_mcp/pip_ops.py:32-36 | text without `==` is a bare name; text with `==` always gets a version |
| PipOps.ParseOne | dev_env_mcp/pip_ops.py:29-36 | one spec yields at most one entry, and none exactly when it is blank |
| PipOps.ParseSpecs | dev_env_mcp/pip_ops.py:23-37 | parsing never yields more specs than given |
| PipOps.SplitsAtFirstEquals | dev_env_mcp/pip_ops.py:33-34 | `name==version` splits at the first `==` into the stripped name and the stripped version, whatever the version holds |
| PipOps.ParseSpecsAppend | dev_env_mcp/pip_ops.py:28-37 | parsing keeps order and treats each spec on its own |
| PipOps.ParseOneSpec | dev_env_mcp/pip_ops.py:29-31 | a spec is dropped exactly when it is blank, and otherwise parsed after stripping |
| PipOps.ParseSpecsEmpty | dev_env_mcp/pip_ops.py:28-31 | the parsed list is empty iff every spec is blank |
| PipOps.EmptyNameKept | dev_env_mcp/pip_ops.py:32-34 | `==version` parses to an empty package name: the parser does not reject it |
| PipOps.StripLiteral | dev_env_mcp/pip_ops.py:29 | stripping text without whitespace at either end changes nothing |
| PipOps.VerifyVerdict | dev_env_mcp/pip_ops.py:45-71 | with only blank specs the verifier answers true without probing; otherwise it answers true iff the last non-whitespace character the probe printed is `1` |
| PipOps.PipArgv | dev_env_mcp/pip_ops.py:112 | every pip command line starts with the interpreter, `-m pip --disable-pip-version-check --no-input`, followed by the action's arguments unchanged |
| PipOps.ActionArgs | dev_env_mcp/pip_ops.py:136-196 | install puts `install` before the options and then the packages; uninstall puts `uninstall -y` before them; show puts `show` before the packages; list passes `list --format=json`, check `check` and freeze `freeze` |
| PipOps.ActionTimeout | dev_env_mcp/config.py:18-22 | no action runs under less than 90 s, and only install and uninstall get a longer limit |
| PipOps.ActionIdleTimeout | dev_env_mcp/config.py:22 | install and uninstall have no idle timeout; every other action has a positive one, so it is armed, and shorter than its hard timeout |
| PipOps.FirstUnexpectedKeyword | dev_env_mcp/runner.py:48-56 | finds the first keyword `run` does not accept (every keyword before it is accepted), or reports that all are accepted |
| PipOps.PipCallAsWritten | dev_env_mcp/pip_ops.py:113-196 | the call as written fails with a policy error iff it is an install or uninstall with a rejected option; any other failure names a keyword that `_pip` passes and `run` does not accept; a call that goes through runs the action's request |
| PipOps.PipCallAsWrittenNeverRuns | dev_env_mcp/pip_ops.py:113-126 | as written, every pip operation fails before running: with the policy error, or with the `TypeError` for `soft_verify` |
| PipOps.PipRequest | dev_env_mcp/pip_ops.py:112-118 | the corrected `_pip` runs the pip argv under the configured 80 000-character output caps, with no success markers |
| PipOps.CorrectedCallAccepted | dev_env_mcp/runner.py:48-56 | the corrected call passes only keywords `run` accepts |
| PipOps.PipCommand | dev_env_mcp/pip_ops.py:129-196 | install and uninstall fail iff some option is rejected by the policy, and the error is the policy's verdict on the first rejected option; list, show, check and freeze never fail the policy; a passing action runs its request |
| PipOps.ArgvLayout | dev_env_mcp/pip_ops.py:138 | install and uninstall argv: the fixed prefix, `install` or `uninstall -y`, the options in order, then the packages in order |
| PipOps.ActionTimeouts | dev_env_mcp/config.py:18-22 | install runs 1800 s and uninstall 600 s, both with no idle timeout; list, show, check and freeze run 90 s with a 15 s idle timeout |
| PipOps.ShowSkipsPolicy | dev_env_mcp/pip_ops.py:172-178 | `pip show` passes its arguments unvalidated: `-r` reaches pip through show while install rejects it |
| PipOps.PackagesSkipPolicy | dev_env_mcp/pip_ops.py:129-157 | install and uninstall validate only their options: `-r` given as a package passes the policy and reaches pip's argv |
| Workspace.NormalizeOnto | dev_env_mcp/workspace.py:31 | folding `.`, empty and `..` components always yields a normal path |
| Workspace.Normalize | dev_env_mcp/workspace.py:28 | `resolve()` yields a path with no empty, `.` or `..` component |
| Workspace.NormalizeOntoNormal | dev_env_mcp/workspace.py:31 | joining normal components to a normal path just appends them |
| Workspace.NormalizeFixesNormal | dev_env_mcp/workspace.py:28 | resolving an already normal path changes nothing |
| Workspace.NormalizeOntoAppend | dev_env_mcp/workspace.py:31 | resolving `root / p` equals resolving `p` onto the resolved root |
| Workspace.NormalizeOntoStep | dev_env_mcp/workspace.py:31 | one component at a time: empty and `.` leave the path unchanged, `..` drops the last component (and stays at `/`), any other component is appended |
| Workspace.DownAndUp | dev_env_mcp/workspace.py:31 | descending into a component and then `..` returns to the starting path |
| Workspace.SplitSlash | dev_env_mcp/workspace.py:29 | splitting on `/` gives at least one piece and no piece contains `/` |
| Workspace.SplitWithoutSlash | dev_env_mcp/workspace.py:29 | text without `/` is a single component |
| Workspace.SplitSlashRoundTrip | dev_env_mcp/workspace.py:29 | joining the split pieces with `/` gives back the text |
| Workspace.Meaningful | dev_env_mcp/workspace.py:29 | the kept components are exactly the pieces that are neither empty nor `.`: none of those is lost and nothing else is added |
| Workspace.MeaningfulAppend | dev_env_mcp/workspace.py:29 | filtering distributes over concatenation, so the kept components keep their order |
| Workspace.MeaningfulOne | dev_env_mcp/workspace.py:29 | one piece is kept iff it is neither empty nor `.` |
| Workspace.MeaningfulKeeps | dev_env_mcp/workspace.py:29 | components that are all meaningful pass unchanged |
| Workspace.SplitJoinSlash | dev_env_mcp/workspace.py:29 | splitting slash-free components joined with `/` gives them back |
| Workspace.FirstSlashAfter | dev_env_mcp/workspace.py:29 | `split("/")` cuts at the first slash, so a slash-free head becomes the first piece |
| Workspace.ParsePathRoundTrip | dev_env_mcp/workspace.py:29 | `Path` of meaningful components joined by `/` is relative and has exactly those parts |
| Workspace.ParseAbsoluteRoundTrip | dev_env_mcp/workspace.py:29 | the same components after a leading `/` make an absolute path with exactly those parts |
| Workspace.ParsePath | dev_env_mcp/workspace.py:29 | `Path(user_path)` is absolute iff the text starts with `/`, and its kept components are non-empty, not `.`, free of `/`, and no more than the pieces of the split |
| Workspace.Target | dev_env_mcp/workspace.py:31 | the checked path is normal; an absolute user path resolves on its own, a relative one as the root's components followed by its own, normalised together |
| Workspace.AbsoluteIgnoresRoot | dev_env_mcp/workspace.py:31 | an absolute user path resolves to the same place under every root |
| Workspace.AbsoluteOutsideRefused | dev_env_mcp/workspace.py:31-34 | an absolute path that does not resolve to the root or below it is refused with the workspace error |
| Workspace.SiblingOutside | dev_env_mcp/workspace.py:31-34 | a top-level absolute path such as `/etc` is refused under a different top-level root such as `/w` |
| Workspace.ResolveInWorkspace | dev_env_mcp/workspace.py:23-36 | accepted iff the resolved path is the root or lies below it, and then it returns that path; otherwise the error names the resolved root |
| Workspace.RelativeJoinedToRoot | dev_env_mcp/workspace.py:31 | a relative path resolves as the root's components followed by its own, normalised together |
| Workspace.DescendingPathInside | dev_env_mcp/workspace.py:31-36 | a relative path without `..` is always accepted and resolves to the root followed by its components |
| Workspace.DotIsRoot | dev_env_mcp/workspace.py:33-36 | `.` resolves to the root itself and is accepted |
| Workspace.DownAndUpIsRoot | dev_env_mcp/workspace.py:28-36 | `x/..` for a plain component `x` resolves to the root itself and is accepted |
| Workspace.ParentEscapes | dev_env_mcp/workspace.py:33-34 | `..` is refused under any root other than `/` |
| Workspace.SlashContainsEverything | dev_env_mcp/workspace.py:33 | under the root `/` every path is accepted |
| Workspace.Parent | dev_env_mcp/workspace.py:16 | the parent is one component shorter and a prefix, and `/` is its own parent |
| Workspace.StartDir | dev_env_mcp/workspace.py:14-16 | the start directory is normal and is the resolved start or one component above it, and it moves up only when the resolved start is a file |
| Workspace.NearestMarked | dev_env_mcp/workspace.py:18-20 | returns the nearest of the path and its ancestors that holds a marker, with no nearer one marked; or none is marked |
| Workspace.FindWorkspaceRoot | dev_env_mcp/workspace.py:8-21 | the root is the start directory or an ancestor of it; when some of them holds a marker it is the nearest such one, otherwise the start directory itself |
| Freeze.LineBreakIsSpace | dev_env_mcp/freeze.py:18 | every `splitlines` boundary is whitespace to `strip` |
| Freeze.LineEnd | dev_env_mcp/freeze.py:18 | the line that starts at a position runs to the next line boundary, or to the end of the text |
| Freeze.SplitLines | dev_env_mcp/freeze.py:18 | no line produced by `splitlines` contains a line boundary |
| Freeze.CountNonBlank | dev_env_mcp/freeze.py:18 | the count is at most the number of lines, and is zero iff every line is blank |
| Freeze.FreezeContent | dev_env_mcp/freeze.py:16-18 | the content is pip's output with exactly its surrounding whitespace removed (a slice of it that starts and ends with non-whitespace, with only whitespace around it) followed by one newline; the count equals the number of non-blank lines pip printed; all-whitespace output gives `"\n"` and 0 |
| Freeze.ContentBody | dev_env_mcp/freeze.py:16 | without its final newline the written content is `stdout.strip()` in the sense of `Text.StrippedOf` |
| Freeze.ScanLine | dev_env_mcp/freeze.py:18 | scanning one line only records whether it holds a non-whitespace character |
| Freeze.ScanBreak | dev_env_mcp/freeze.py:18 | a line boundary closes the current line, and `\r\n` is passed as a single boundary |
| Freeze.SplitLinesCount | dev_env_mcp/freeze.py:18 | counting non-blank lines over `splitlines()` agrees with a single character scan |
| Freeze.LeadingBlankIgnored | dev_env_mcp/freeze.py:16 | leading whitespace adds no non-blank line |
| Freeze.BlankTail | dev_env_mcp/freeze.py:16 | whitespace alone only closes the current line |
| Freeze.TrailingBlankIgnored | dev_env_mcp/freeze.py:16 | trailing whitespace, such as the appended newline, adds no non-blank line |
| Freeze.StripCount | dev_env_mcp/freeze.py:16 | stripping keeps the number of non-blank lines |
| Freeze.ContentCount | dev_env_mcp/freeze.py:16-18 | the written content has exactly as many non-blank lines as pip's raw output |

## Left out

- Processes, threads and the clock: `Popen`, the reader threads, `time.monotonic` and
  `time.sleep` are replaced by the tick trace, the chunk sequences and the wait outcome. The
  model does not relate a tick's captured text to the chunks. The chunks given are the ones
  read before `join(timeout=1)` returned.
- Supervisor.Run: a failed launch is not modelled. When `subprocess.Popen` raises (a missing
  interpreter, say, at `runner.py:66-72`) the exception leaves `run`, and the model has no such
  outcome.
- Supervisor.FinalWait: every `WaitOutcome` carries a return code. This assumes the unbounded
  `p.wait()` after the escalating kill (`runner.py:138`) returns; a child that never dies
  after `kill` would hang `run`, and the model has no such outcome.
- Supervisor.Run: times are whole ticks, not floats. Sub-tick timing is not modelled.
- Capture.Capture: models text after decoding. UTF-8 decoding with replacement characters is
  left out, so the cap counts decoded characters just as the source does.
- `_debug` logging: a side effect with no bearing on results.
- The scripts that `_verify_installed` and `_verify_absent` run in the child interpreter, and
  the JSON payload passed to them: they run in another process. Their printed stdout is the
  parameter of PipOps.VerifyVerdict.
- PipOps.VerifyVerdict: the verifiers' own `run` call is not composed with the result. The
  stdout of the probe is taken as given.
- Soft verification: `_pip`'s `soft_verify` and `soft_success_hints` have no counterpart in
  `run`, so the corrected call drops them (see Findings).
- Freeze.FreezeContent: the atomic write (`_atomic_write`) and the `written_to` path are file
  I/O and are left out. The pip stdout is a parameter.
- Workspace: resolution is lexical. Symbolic links, the current directory for relative roots
  or start paths, Windows paths and POSIX's special leading `//` are left out.
- `state.py`, `audit.py`, `venv_ops.py`, `server.py` and `config.py` beyond its constants are
  not part of this model.

## Findings

| source | as written | input that shows it | evidently intended | confidence | as-written member | corrected member |
|---|---|---|---|---|---|---|
| dev_env_mcp/pip_ops.py:113-126 | `_pip` calls `run` with `soft_verify`, five `soft_verify_*` tuning keywords and `soft_success_hints`. The signature of `run` (dev_env_mcp/runner.py:48-56) has none of them, so Python raises `TypeError` before any child starts. | `pip_list(env_py)`: `run()` gets the unexpected keyword `soft_verify` | every pip action runs pip under its timeouts and output caps | high, not executed | PipOps.PipCallAsWrittenNeverRuns | PipOps.PipCommand |

=== FILE: capture.dfy ===
/** Bounded output capture: the fold one reader thread of the runner performs over the chunks
    it reads from a child's stdout or stderr (`_read_stream`, dev_env_mcp/runner.py). */
module Capture {
  import opened Common
  import opened Text

  /** One `stream.read(4096)` result, already decoded, stamped with the monotonic time at which
      it arrived. An empty text is the end of the stream. */
  datatype Chunk = Chunk(at: int, text: string)

  /** What a reader shares with the supervisor: the appended parts (`buf`), their running
      length (`buf_len`) and the time of this reader's last non-empty read. Both readers
      write that time into one shared `last_output` cell, so the supervisor sees the later
      of the two writes; it reads the shared value from each `Tick`. */
  datatype Buffer = Buffer(parts: seq<string>, len: int, lastOutput: int)

  /** The buffer before anything is read; `last_output` starts at the run's start time. */
  function Empty(start: int): Buffer {
    Buffer([], 0, start)
  }

  /** The buffer's bookkeeping is exact and within the cap. */
  predicate Valid(b: Buffer, maxChars: int) {
    b.len == |Join(b.parts)| && b.len <= Max(0, maxChars)
  }

  /** The chunks a reader consumes: every read before the first empty one. */
  function Consumed(chunks: seq<Chunk>): (r: seq<Chunk>)
    ensures |r| <= |chunks| && r == chunks[..|r|]
    ensures forall k :: 0 <= k < |r| ==> r[k].text != []
    ensures |r| < |chunks| ==> chunks[|r|].text == []
  {
    if |chunks| == 0 || chunks[0].text == [] then []
    else [chunks[0]] + Consumed(chunks[1..])
  }

  /** Everything the child wrote, in order: the concatenation of the chunk texts. */
  function TextOf(chunks: seq<Chunk>): string {
    if |chunks| == 0 then [] else chunks[0].text + TextOf(chunks[1..])
  }

  /** One iteration of the reader loop for a non-empty chunk. */
  function Append(b: Buffer, maxChars: int, c: Chunk): (b': Buffer)
    ensures b'.lastOutput == c.at
    ensures b.len >= maxChars ==> b'.parts == b.parts && b'.len == b.len
    ensures Valid(b, maxChars) ==> Valid(b', maxChars)
  {
    if b.len < maxChars then
      var remaining := maxChars - b.len;
      var piece := SlicePrefix(c.text, remaining);
      JoinAppend(b.parts, piece);
      Buffer(b.parts + [piece], b.len + Min(|c.text|, remaining), c.at)
    else
      b.(lastOutput := c.at)
  }

  /** `_read_stream`: fold the chunks into the buffer until the first empty read. */
  function ReadStream(b: Buffer, maxChars: int, chunks: seq<Chunk>): (r: Buffer)
    ensures b.parts <= r.parts && |r.parts| <= |b.parts| + |chunks|
    ensures b.len <= r.len
    decreases |chunks|
  {
    if |chunks| == 0 || chunks[0].text == [] then b
    else ReadStream(Append(b, maxChars, chunks[0]), maxChars, chunks[1..])
  }

  /** What one reader thread has captured from a stream, starting from an empty buffer. */
  function Capture(chunks: seq<Chunk>, maxChars: int, start: int): (b: Buffer)
    ensures Valid(b, maxChars)
    ensures Join(b.parts) == Take(TextOf(Consumed(chunks)), maxChars)
    ensures b.lastOutput == (if |Consumed(chunks)| == 0 then start else Consumed(chunks)[|Consumed(chunks)| - 1].at)
  {
    FromEmpty(chunks, maxChars, start);
    ReadStream(Empty(start), maxChars, chunks)
  }

  /** The facts about reading a whole stream into an empty buffer. */
  lemma FromEmpty(chunks: seq<Chunk>, maxChars: int, start: int)
    ensures var b := ReadStream(Empty(start), maxChars, chunks);
      && Valid(b, maxChars)
      && Join(b.parts) == Take(TextOf(Consumed(chunks)), maxChars)
      && b.lastOutput == (if |Consumed(chunks)| == 0 then start else Consumed(chunks)[|Consumed(chunks)| - 1].at)
  {
    var e := Empty(start);
    ReadStreamValid(e, maxChars, chunks);
    assert Join(e.parts) == Take([], maxChars);
    ReadStreamText(e, maxChars, chunks, []);
    assert [] + TextOf(Consumed(chunks)) == TextOf(Consumed(chunks));
    ReadStreamLastOutput(e, maxChars, chunks);
  }

  /** The buffer stays exact and within the cap however many chunks arrive. */
  lemma {:induction false} ReadStreamValid(b: Buffer, maxChars: int, chunks: seq<Chunk>)
    requires Valid(b, maxChars)
    ensures Valid(ReadStream(b, maxChars, chunks), maxChars)
    decreases |chunks|
  {
    if |chunks| > 0 && chunks[0].text != [] {
      ReadStreamValid(Append(b, maxChars, chunks[0]), maxChars, chunks[1..]);
    }
  }

  /** Appending one chunk keeps the captured text equal to the capped prefix of all text read. */
  lemma AppendTake(b: Buffer, maxChars: int, c: Chunk, seen: string)
    requires b.len == |Join(b.parts)| && Join(b.parts) == Take(seen, maxChars)
    ensures Join(Append(b, maxChars, c).parts) == Take(seen + c.text, maxChars)
  {
    var b' := Append(b, maxChars, c);
    if b.len < maxChars {
      var piece := SlicePrefix(c.text, maxChars - b.len);
      assert Take(seen, maxChars) == seen;
      JoinAppend(b.parts, piece);
      assert Join(b'.parts) == seen + piece;
      assert (seen + c.text)[..|seen| + |piece|] == seen + piece;
    } else if 0 < maxChars {
      assert (seen + c.text)[..maxChars] == seen[..maxChars];
    }
  }

  /** The captured text is exactly the first `maxChars` characters of everything read. */
  lemma {:induction false} ReadStreamText(b: Buffer, maxChars: int, chunks: seq<Chunk>, seen: string)
    requires b.len == |Join(b.parts)| && Join(b.parts) == Take(seen, maxChars)
    ensures Join(ReadStream(b, maxChars, chunks).parts) == Take(seen + TextOf(Consumed(chunks)), maxChars)
    decreases |chunks|
  {
    if |chunks| == 0 || chunks[0].text == [] {
      assert seen + TextOf(Consumed(chunks)) == seen;
    } else {
      var c := chunks[0];
      var b' := Append(b, maxChars, c);
      AppendTake(b, maxChars, c, seen);
      JoinAppend(b.parts, SlicePrefix(c.text, maxChars - b.len));
      assert b'.len == |Join(b'.parts)|;
      ReadStreamText(b', maxChars, chunks[1..], seen + c.text);
      var rest := TextOf(Consumed(chunks[1..]));
      ConsumedText(chunks);
      assert seen + c.text + rest == seen + (c.text + rest);
    }
  }

  /** A non-empty first chunk heads the consumed text. */
  lemma ConsumedText(chunks: seq<Chunk>)
    requires |chunks| > 0 && chunks[0].text != []
    ensures TextOf(Consumed(chunks)) == chunks[0].text + TextOf(Consumed(chunks[1..]))
  {
    var r := Consumed(chunks[1..]);
    assert Consumed(chunks) == [chunks[0]] + r;
    assert ([chunks[0]] + r)[1..] == r;
  }

  /** `last_output` ends at the arrival time of the last non-empty chunk, capped or not. */
  lemma {:induction false} ReadStreamLastOutput(b: Buffer, maxChars: int, chunks: seq<Chunk>)
    ensures var r := Consumed(chunks);
      ReadStream(b, maxChars, chunks).lastOutput == (if |r| == 0 then b.lastOutput else r[|r| - 1].at)
    decreases |chunks|
  {
    if |chunks| > 0 && chunks[0].text != [] {
      ReadStreamLastOutput(Append(b, maxChars, chunks[0]), maxChars, chunks[1..]);
      assert Consumed(chunks) == [chunks[0]] + Consumed(chunks[1..]);
    }
  }

  /** Once the cap is reached, later chunks append nothing (but still count as output). */
  lemma {:induction false} FullBufferFrozen(b: Buffer, maxChars: int, chunks: seq<Chunk>)
    requires b.len >= maxChars
    ensures ReadStream(b, maxChars, chunks).parts == b.parts
    ensures ReadStream(b, maxChars, chunks).len == b.len
    decreases |chunks|
  {
    if |chunks| > 0 && chunks[0].text != [] {
      FullBufferFrozen(Append(b, maxChars, chunks[0]), maxChars, chunks[1..]);
    }
  }
}

=== FILE: common.dfy ===
/** Failure-carrying datatypes shared by the modules of this model. */
module Common {

  /** An optional value: Python's `X | None`. */
  datatype Option<+T> = None | Some(value: T)

  /** Either a value or the error the source raises instead of returning one. */
  datatype Result<+T, +E> = Ok(value: T) | Err(error: E)

  function Min(a: int, b: int): int { if a <= b then a else b }

  function Max(a: int, b: int): int { if a <= b then b else a }
}

=== FILE: freeze.dfy ===
/** The content and count computed by `freeze_to_file` (dev_env_mcp/freeze.py) from the
    stdout of `pip freeze`: the stripped output plus a newline, and the number of its lines
    that hold a non-whitespace character. */
module Freeze {
  import opened Text

  /** The line boundaries of Python's `str.splitlines()`; `\r\n` counts as one. */
  predicate IsLineBreak(c: char) {
    var n := c as int;
    (0x0A <= n <= 0x0D) || (0x1C <= n <= 0x1E) || n == 0x85 || n == 0x2028 || n == 0x2029
  }

  /** Every line boundary is whitespace, so `strip` removes boundaries at either end. */
  lemma LineBreakIsSpace(c: char)
    ensures IsLineBreak(c) ==> IsSpace(c)
  {
    var n := c as int;
    if 0x0A <= n <= 0x0D {
      InRangesAt(n, SpaceRanges, 0);
    } else if 0x1C <= n <= 0x1E {
      InRangesAt(n, SpaceRanges, 1);
    } else if n == 0x85 {
      InRangesAt(n, SpaceRanges, 2);
    } else if n == 0x2028 || n == 0x2029 {
      InRangesAt(n, SpaceRanges, 6);
    }
  }

  /** The end of the line that starts at `i`: the next line boundary, or the end of `s`. */
  function LineEnd(s: string, i: nat): (j: nat)
    requires i <= |s|
    ensures i <= j <= |s|
    ensures forall k :: i <= k < j ==> !IsLineBreak(s[k])
    ensures j < |s| ==> IsLineBreak(s[j])
    decreases |s| - i
  {
    if i == |s| || IsLineBreak(s[i]) then i else LineEnd(s, i + 1)
  }

  /** Width of the boundary at `j`: two for `\r\n`, else one. */
  function BreakWidth(s: string, j: nat): nat
    requires j < |s|
  {
    if s[j] == '\r' && j + 1 < |s| && s[j + 1] == '\n' then 2 else 1
  }

  /** Python's `s.splitlines()`: the lines without their boundaries, and no empty last line
      for a trailing boundary. */
  function SplitLines(s: string): (lines: seq<string>)
    ensures forall k :: 0 <= k < |lines| ==> forall c :: c in lines[k] ==> !IsLineBreak(c)
    decreases |s|
  {
    if |s| == 0 then []
    else
      var j := LineEnd(s, 0);
      if j == |s| then [s]
      else [s[..j]] + SplitLines(s[j + BreakWidth(s, j)..])
  }

  /** `len([ln for ln in lines if ln.strip()])`. */
  function CountNonBlank(lines: seq<string>): (n: nat)
    ensures n <= |lines|
    ensures n == 0 <==> forall k :: 0 <= k < |lines| ==> AllSpace(lines[k])
  {
    if |lines| == 0 then 0
    else (if Strip(lines[0]) != [] then 1 else 0) + CountNonBlank(lines[1..])
  }

  /** Reference count of non-blank lines by a single scan over the characters; `seen` says
      whether the current line has shown a non-whitespace character yet. */
  function NonBlankFrom(s: string, seen: bool): nat
    decreases |s|
  {
    if |s| == 0 then (if seen then 1 else 0)
    else if IsLineBreak(s[0]) then (if seen then 1 else 0) + NonBlankFrom(s[1..], false)
    else NonBlankFrom(s[1..], seen || !IsSpace(s[0]))
  }

  /** The number of lines of `s` that hold a non-whitespace character. */
  function NonBlankLines(s: string): nat {
    NonBlankFrom(s, false)
  }

  /** What `freeze_to_file` writes and reports. */
  datatype FreezeReport = FreezeReport(content: string, count: nat)

  /** `content = (r.stdout or "").strip() + "\n"` and the count of its non-blank lines. */
  function FreezeContent(stdout: string): (r: FreezeReport)
    ensures |r.content| > 0 && r.content[|r.content| - 1] == '\n'
    ensures r.content == "\n" || !IsSpace(r.content[0])
    ensures r.count <= |SplitLines(r.content)|
    ensures r.count == NonBlankLines(stdout)
    ensures AllSpace(stdout) ==> r == FreezeReport("\n", 0)
    ensures StrippedOf(r.content[..|r.content| - 1], stdout)
  {
    var content := Strip(stdout) + "\n";
    ContentBody(stdout);
    SplitLinesCount(content);
    ContentCount(stdout);
    FreezeReport(content, CountNonBlank(SplitLines(content)))
  }

  /** Without its final newline the content is `stdout` with exactly the surrounding
      whitespace removed. */
  lemma ContentBody(stdout: string)
    ensures var content := Strip(stdout) + "\n"; StrippedOf(content[..|content| - 1], stdout)
  {
    var content := Strip(stdout) + "\n";
    assert content[..|content| - 1] == Strip(stdout);
  }

  /** Scanning a line without boundaries only records whether it held a non-whitespace
      character. */
  lemma {:induction false} ScanLine(line: string, rest: string, seen: bool)
    requires forall k :: 0 <= k < |line| ==> !IsLineBreak(line[k])
    ensures NonBlankFrom(line + rest, seen) == NonBlankFrom(rest, seen || HasNonSpace(line))
    decreases |line|
  {
    if |line| > 0 {
      assert (line + rest)[0] == line[0];
      assert (line + rest)[1..] == line[1..] + rest;
      ScanLine(line[1..], rest, seen || !IsSpace(line[0]));
      assert HasNonSpace(line) <==> !IsSpace(line[0]) || HasNonSpace(line[1..]) by {
        if HasNonSpace(line[1..]) {
          var k :| 0 <= k < |line[1..]| && !IsSpace(line[1..][k]);
          assert line[k + 1] == line[1..][k];
        }
        if HasNonSpace(line) && IsSpace(line[0]) {
          var k :| 0 <= k < |line| && !IsSpace(line[k]);
          assert line[1..][k - 1] == line[k];
        }
      }
    } else {
      assert line + rest == rest;
    }
  }

  /** Counting over `splitlines()` agrees with the single scan. */
  lemma {:induction false} SplitLinesCount(s: string)
    ensures CountNonBlank(SplitLines(s)) == NonBlankLines(s)
    decreases |s|
  {
    if |s| > 0 {
      var j := LineEnd(s, 0);
      var line := s[..j];
      ScanFirstLine(s, j);
      if j < |s| {
        var w := BreakWidth(s, j);
        var rest := s[j + w..];
        DropBreak(s, j);
        ScanBreak(s[j..], HasNonSpace(line));
        SplitLinesCount(rest);
        CountCons(line, SplitLines(rest));
      } else {
        assert line == s;
        assert s[j..] == [];
        CountCons(line, []);
        assert SplitLines(s) == [line] + [];
      }
    }
  }

  /** The count over a list headed by `line`. */
  lemma CountCons(line: string, lines: seq<string>)
    ensures CountNonBlank([line] + lines) == (if HasNonSpace(line) then 1 else 0) + CountNonBlank(lines)
  {
    assert ([line] + lines)[0] == line;
    assert ([line] + lines)[1..] == lines;
    assert Strip(line) != [] <==> HasNonSpace(line);
  }

  /** The scan over `s` passes its first line, whose end is `j`, recording only whether the
      line held a non-whitespace character. */
  lemma ScanFirstLine(s: string, j: nat)
    requires 0 < |s| && j == LineEnd(s, 0)
    ensures NonBlankFrom(s, false) == NonBlankFrom(s[j..], HasNonSpace(s[..j]))
  {
    ScanLine(s[..j], s[j..], false);
    assert s == s[..j] + s[j..];
  }

  /** The boundary at `j` seen from the suffix that starts there. */
  lemma DropBreak(s: string, j: nat)
    requires j < |s|
    ensures BreakWidth(s[j..], 0) == BreakWidth(s, j)
    ensures s[j..][BreakWidth(s, j)..] == s[j + BreakWidth(s, j)..]
  {
    var t := s[j..];
    assert t[0] == s[j];
    assert j + 1 < |s| ==> t[1] == s[j + 1];
  }

  /** A boundary at the head of `t` closes the current line; `\r\n` is passed as one. */
  lemma ScanBreak(t: string, seen: bool)
    requires 0 < |t| && IsLineBreak(t[0])
    ensures NonBlankFrom(t, seen) == (if seen then 1 else 0) + NonBlankFrom(t[BreakWidth(t, 0)..], false)
  {
    if BreakWidth(t, 0) == 2 {
      var u := t[1..];
      assert u[0] == '\n';
      assert u[1..] == t[2..];
      assert NonBlankFrom(u, false) == NonBlankFrom(t[2..], false);
    }
  }

  /** Leading whitespace holds no non-blank line. */
  lemma {:induction false} LeadingBlankIgnored(ws: string, x: string)
    requires AllSpace(ws)
    ensures NonBlankFrom(ws + x, false) == NonBlankFrom(x, false)
    decreases |ws|
  {
    if |ws| > 0 {
      assert (ws + x)[0] == ws[0];
      assert (ws + x)[1..] == ws[1..] + x;
      LeadingBlankIgnored(ws[1..], x);
    } else {
      assert ws + x == x;
    }
  }

  /** Whitespace alone ends the current line, if anything, and adds no non-blank line. */
  lemma {:induction false} BlankTail(ws: string, seen: bool)
    requires AllSpace(ws)
    ensures NonBlankFrom(ws, seen) == (if seen then 1 else 0)
    decreases |ws|
  {
    if |ws| > 0 {
      BlankTail(ws[1..], if IsLineBreak(ws[0]) then false else seen);
    }
  }

  /** Trailing whitespace holds no non-blank line. */
  lemma {:induction false} TrailingBlankIgnored(x: string, ws: string, seen: bool)
    requires AllSpace(ws)
    ensures NonBlankFrom(x + ws, seen) == NonBlankFrom(x, seen)
    decreases |x|
  {
    if |x| > 0 {
      assert (x + ws)[0] == x[0];
      assert (x + ws)[1..] == x[1..] + ws;
      TrailingBlankIgnored(x[1..], ws, if IsLineBreak(x[0]) then false else seen || !IsSpace(x[0]));
    } else {
      assert x + ws == ws;
      BlankTail(ws, seen);
    }
  }

  /** The written content has as many non-blank lines as pip printed: stripping and the
      appended newline add or remove only blank text. */
  lemma ContentCount(stdout: string)
    ensures NonBlankLines(Strip(stdout) + "\n") == NonBlankLines(stdout)
  {
    var x := Strip(stdout);
    StripCount(stdout);
    var nl := "\n";
    assert AllSpace(nl) by { assert IsSpace(nl[0]); }
    TrailingBlankIgnored(x, nl, false);
  }

  /** Stripping removes only blank text. */
  lemma StripCount(s: string)
    ensures NonBlankFrom(Strip(s), false) == NonBlankFrom(s, false)
  {
    var i := LeadingSpace(s);
    var x := Strip(s);
    var rest := s[i..];
    var trail := s[i + |x|..];
    assert rest == x + trail;
    assert s == s[..i] + rest;
    LeadingBlankIgnored(s[..i], rest);
    TrailingBlankIgnored(x, trail, false);
  }
}

=== FILE: pipops.dfy ===
/** The pip policy and command construction of dev_env_mcp/pip_ops.py: the option allowlist,
    the `name` / `name==version` spec parser, the verdict of the installed/absent verifiers and
    the argument vectors and run parameters of each pip action. */
module PipOps {
  import opened Common
  import opened Text
  import Supervisor

  /** `config.ALLOWED_PIP_OPTIONS_PREFIXES`. */
  const AllowedPipOptionPrefixes: seq<string> := [
    "--no-deps",
    "--no-input",
    "--disable-pip-version-check",
    "--no-cache-dir",
    "--prefer-binary",
    "--only-binary",
    "--index-url",
    "--extra-index-url",
    "--trusted-host",
    "--find-links",
    "--require-hashes"
  ]

  const MaxStdoutChars := 80_000
  const MaxStderrChars := 80_000
  const TimeoutPipInstall := 1800
  const TimeoutPipUninstall := 600
  const TimeoutPipOther := 90
  const TimeoutPipFreeze := 90
  const TimeoutPipIdleOther := 15

  /** `PipPolicyError("Disallowed pip option: ...")`. */
  datatype PolicyError = DisallowedOption(option: string)

  /** An option passes the policy when it is not dash-led or some allowed prefix starts it. */
  predicate OptionAllowed(allowed: seq<string>, opt: string) {
    !StartsWith(opt, "-") || exists k :: 0 <= k < |allowed| && StartsWith(opt, allowed[k])
  }

  /** The first option at or after `i` that the policy rejects. */
  function FirstDisallowed(allowed: seq<string>, options: seq<string>, i: nat): (r: Option<nat>)
    requires i <= |options|
    ensures r.Some? ==> i <= r.value < |options| && !OptionAllowed(allowed, options[r.value])
    ensures r.Some? ==> forall j :: i <= j < r.value ==> OptionAllowed(allowed, options[j])
    ensures r.None? ==> forall j :: i <= j < |options| ==> OptionAllowed(allowed, options[j])
    decreases |options| - i
  {
    if i == |options| then None
    else if !OptionAllowed(allowed, options[i]) then Some(i)
    else FirstDisallowed(allowed, options, i + 1)
  }

  /** `_validate_options`: `None` when every option passes, else the error for the first
      option that does not. */
  function ValidateOptions(allowed: seq<string>, options: seq<string>): (r: Option<PolicyError>)
    ensures r.None? <==> forall j :: 0 <= j < |options| ==> OptionAllowed(allowed, options[j])
    ensures r.Some? ==> exists j :: (0 <= j < |options| && r.value == DisallowedOption(options[j])
      && !OptionAllowed(allowed, options[j])
      && forall k :: 0 <= k < j ==> OptionAllowed(allowed, options[k]))
  {
    match FirstDisallowed(allowed, options, 0)
    case None => None
    case Some(j) => Some(DisallowedOption(options[j]))
  }

  /** Every entry of the configured allowlist is a long option. */
  lemma AllowlistIsLongOptions()
    ensures forall k :: 0 <= k < |AllowedPipOptionPrefixes| ==> StartsWith(AllowedPipOptionPrefixes[k], "--")
  {
  }

  /** Against an allowlist of long options every single-dash item (`-r`, `-U`, `-`) is rejected. */
  lemma ShortOptionsRejected(allowed: seq<string>, opt: string)
    requires forall k :: 0 <= k < |allowed| ==> StartsWith(allowed[k], "--")
    requires StartsWith(opt, "-") && (|opt| == 1 || opt[1] != '-')
    ensures !OptionAllowed(allowed, opt)
  {
    forall k | 0 <= k < |allowed| ensures !StartsWith(opt, allowed[k]) {
      assert StartsWith(allowed[k], "--");
      assert allowed[k][1] == '-';
    }
  }

  /** So the configured policy rejects every short option. */
  lemma ConfiguredPolicyRejectsShortOptions(opt: string)
    requires StartsWith(opt, "-") && (|opt| == 1 || opt[1] != '-')
    ensures !OptionAllowed(AllowedPipOptionPrefixes, opt)
  {
    AllowlistIsLongOptions();
    ShortOptionsRejected(AllowedPipOptionPrefixes, opt);
  }

  /** Matching is by prefix, not equality: anything appended to an allowed option passes,
      such as `--index-url=...` or `--no-deps-anything`. */
  lemma AllowedByPrefix(allowed: seq<string>, opt: string, suffix: string)
    requires StartsWith(opt, "-") && OptionAllowed(allowed, opt)
    ensures OptionAllowed(allowed, opt + suffix)
  {
    var k :| 0 <= k < |allowed| && StartsWith(opt, allowed[k]);
    assert (opt + suffix)[..|allowed[k]|] == opt[..|allowed[k]|];
    assert StartsWith(opt + suffix, allowed[k]);
  }

  /** A requirement spec: the name and, for `name==version`, the version. */
  datatype Spec = Spec(name: string, version: Option<string>)

  /** One stripped, non-blank spec: split at the first `==` with both halves stripped, or
      the whole text as a name. */
  function ParseSpec(s: string): (r: Spec)
    ensures !Contains(s, "==") ==> r == Spec(s, None)
    ensures Contains(s, "==") ==> r.version.Some?
  {
    match Find(s, "==")
    case None => Spec(s, None)
    case Some(i) => Spec(Strip(s[..i]), Some(Strip(s[i + 2..])))
  }

  /** One iteration of `_parse_specs`: nothing for a blank spec, else the stripped spec parsed. */
  function ParseOne(spec: string): (r: seq<Spec>)
    ensures |r| <= 1
    ensures r == [] <==> AllSpace(spec)
  {
    var s := Strip(spec);
    if s == [] then [] else [ParseSpec(s)]
  }

  /** `_parse_specs`: drop blank specs, parse the others, keep their order. */
  function ParseSpecs(specs: seq<string>): (r: seq<Spec>)
    ensures |r| <= |specs|
  {
    if |specs| == 0 then [] else ParseOne(specs[0]) + ParseSpecs(specs[1..])
  }

  /** A spec `name==version` whose name holds no `==` and does not end in `=` splits into
      the stripped name and the stripped version, whatever the version holds. */
  lemma SplitsAtFirstEquals(name: string, version: string)
    requires !Contains(name, "==")
    requires name == [] || name[|name| - 1] != '='
    ensures ParseSpec(name + "==" + version) == Spec(Strip(name), Some(Strip(version)))
  {
    var s := name + "==" + version;
    assert OccursAt(s, "==", |name|) by { assert s[|name|..|name| + 2] == "=="; }
    NoSeparatorInName(name, version);
    FindFirst(s, "==", |name|);
    assert s[..|name|] == name;
    assert s[|name| + 2..] == version;
  }

  /** No `==` starts inside the name part of `name==version`. */
  lemma NoSeparatorInName(name: string, version: string)
    requires !Contains(name, "==")
    requires name == [] || name[|name| - 1] != '='
    ensures forall k: nat :: k < |name| ==> !OccursAt(name + "==" + version, "==", k)
  {
    var s := name + "==" + version;
    forall k: nat | k < |name| ensures !OccursAt(s, "==", k) {
      if k + 2 <= |name| {
        assert s[k..k + 2] == name[k..k + 2];
        assert !OccursAt(name, "==", k);
      } else {
        assert s[k] == name[|name| - 1];
        assert k + 2 <= |s| ==> s[k..k + 2][0] == s[k];
      }
    }
  }

  /** Parsing distributes over concatenation: order is kept and each spec is parsed alone. */
  lemma {:induction false} ParseSpecsAppend(a: seq<string>, b: seq<string>)
    ensures ParseSpecs(a + b) == ParseSpecs(a) + ParseSpecs(b)
    decreases |a|
  {
    if |a| == 0 {
      assert a + b == b;
    } else {
      assert (a + b)[0] == a[0];
      assert (a + b)[1..] == a[1..] + b;
      ParseSpecsAppend(a[1..], b);
    }
  }

  /** A single spec is dropped exactly when it is blank. */
  lemma ParseOneSpec(s: string)
    ensures ParseSpecs([s]) == (if AllSpace(s) then [] else [ParseSpec(Strip(s))])
  {
    assert [s][1..] == [];
  }

  /** The parsed list is empty exactly when every spec is blank. */
  lemma {:induction false} ParseSpecsEmpty(specs: seq<string>)
    ensures ParseSpecs(specs) == [] <==> AllBlank(specs)
    decreases |specs|
  {
    if |specs| > 0 {
      ParseSpecsEmpty(specs[1..]);
      assert ParseSpecs(specs) == ParseOne(specs[0]) + ParseSpecs(specs[1..]);
      AllBlankCons(specs);
    }
  }

  /** Every spec is blank. */
  predicate AllBlank(specs: seq<string>) {
    forall k :: 0 <= k < |specs| ==> AllSpace(specs[k])
  }

  lemma AllBlankCons(specs: seq<string>)
    requires |specs| > 0
    ensures AllBlank(specs) <==> AllSpace(specs[0]) && AllBlank(specs[1..])
  {
    if AllSpace(specs[0]) && AllBlank(specs[1..]) {
      forall k | 0 <= k < |specs| ensures AllSpace(specs[k]) {
        if k > 0 {
          assert specs[k] == specs[1..][k - 1];
        }
      }
    }
  }

  /** A spec that is only `==` and a version yields an empty package name: the parser does
      not reject it. */
  lemma EmptyNameKept(version: string)
    requires version != [] && !IsSpace(version[0]) && !IsSpace(version[|version| - 1])
    ensures ParseSpecs(["==" + version]) == [Spec("", Some(version))]
  {
    var s := "==" + version;
    assert s[0] == '=' && s[|s| - 1] == version[|version| - 1];
    PrintableNotSpace('=');
    StripLiteral(s);
    ParseOneSpec(s);
    StripLiteral(version);
    StripSurrounded("", "", "");
    SplitsAtFirstEquals("", version);
    assert "" + "==" + version == s;
  }

  /** Stripping text without whitespace at either end changes nothing. */
  lemma StripLiteral(s: string)
    requires s != [] && !IsSpace(s[0]) && !IsSpace(s[|s| - 1])
    ensures Strip(s) == s
  {
    StripSurrounded("", s, "");
    assert "" + s + "" == s;
  }

  /** The verdict of `_verify_installed` and `_verify_absent`, given the stdout of the child
      interpreter that probes the environment: true without asking when no spec remains
      after parsing, else true exactly when the last non-whitespace character printed is `1`. */
  function VerifyVerdict(specs: seq<string>, childStdout: string): (ok: bool)
    ensures (forall k :: 0 <= k < |specs| ==> AllSpace(specs[k])) ==> ok
    ensures (exists k :: 0 <= k < |specs| && !AllSpace(specs[k])) ==>
      (ok <==> exists k :: 0 <= k < |childStdout| && childStdout[k] == '1' && AllSpace(childStdout[k + 1..]))
  {
    ParseSpecsEmpty(specs);
    PrintableNotSpace('1');
    StripEndsWith(childStdout, '1');
    if ParseSpecs(specs) == [] then true
    else EndsWith(Strip(childStdout), "1")
  }

  /** The fixed front of every pip command line. */
  function PipArgvPrefix(envPy: string): seq<string> {
    [envPy, "-m", "pip", "--disable-pip-version-check", "--no-input"]
  }

  /** The argv `_pip` builds: the fixed prefix, then the action's arguments unchanged. */
  function PipArgv(envPy: string, args: seq<string>): (argv: seq<string>)
    ensures |argv| == |PipArgvPrefix(envPy)| + |args|
    ensures PipArgvPrefix(envPy) <= argv
    ensures argv[|PipArgvPrefix(envPy)|..] == args
  {
    PipArgvPrefix(envPy) + args
  }

  /** The pip operations the tool surface exposes. */
  datatype PipAction =
    | Install(packages: seq<string>, options: seq<string>)
    | Uninstall(packages: seq<string>, options: seq<string>)
    | List
    | Show(packages: seq<string>)
    | Check
    | Freeze

  /** The actions whose options go through the policy. */
  predicate Validated(a: PipAction) {
    a.Install? || a.Uninstall?
  }

  /** The arguments each action passes to `_pip`. */
  function ActionArgs(a: PipAction): (r: seq<string>)
    ensures |r| >= 1
    ensures a.Install? ==> r[0] == "install" && r[1..] == a.options + a.packages
    ensures a.Uninstall? ==> |r| >= 2 && r[..2] == ["uninstall", "-y"] && r[2..] == a.options + a.packages
    ensures a.Show? ==> r[0] == "show" && r[1..] == a.packages
    ensures a.List? ==> r == ["list", "--format=json"]
    ensures a.Check? ==> r == ["check"]
    ensures a.Freeze? ==> r == ["freeze"]
  {
    match a
    case Install(packages, options) => ["install"] + options + packages
    case Uninstall(packages, options) => ["uninstall", "-y"] + options + packages
    case List => ["list", "--format=json"]
    case Show(packages) => ["show"] + packages
    case Check => ["check"]
    case Freeze => ["freeze"]
  }

  /** The hard timeout each action runs under. */
  function ActionTimeout(a: PipAction): (t: int)
    ensures t >= TimeoutPipOther
    ensures t > TimeoutPipOther <==> Validated(a)
  {
    match a
    case Install(_, _) => TimeoutPipInstall
    case Uninstall(_, _) => TimeoutPipUninstall
    case Freeze => TimeoutPipFreeze
    case _ => TimeoutPipOther
  }

  /** Installs and uninstalls never use an idle timeout; the other actions use 15 seconds. */
  function ActionIdleTimeout(a: PipAction): (r: Option<int>)
    ensures r.None? <==> Validated(a)
    ensures r.Some? ==> 0 < r.value < ActionTimeout(a)
  {
    if Validated(a) then None else Some(TimeoutPipIdleOther)
  }

  /** The keyword parameters `run` accepts. */
  const RunKeywords: set<string> := {
    "timeout_sec", "max_out", "max_err", "idle_timeout_sec", "success_markers", "success_grace_sec"
  }

  /** The keyword arguments `_pip` passes to `run`, in the order it passes them. */
  const PipCallKeywords: seq<string> := [
    "timeout_sec", "max_out", "max_err", "idle_timeout_sec", "soft_verify",
    "soft_verify_start_after_sec", "soft_verify_every_sec", "soft_verify_fast_every_sec",
    "soft_verify_grace_sec", "soft_verify_kill_if_no_exit_after_sec", "soft_success_hints"
  ]

  /** The keyword arguments of the corrected call: the ones `run` accepts. */
  const CorrectedCallKeywords: seq<string> := ["timeout_sec", "max_out", "max_err", "idle_timeout_sec"]

  /** Why a pip operation fails before running anything. */
  datatype CallError = Policy(error: PolicyError) | UnexpectedKeyword(keyword: string)

  /** The first keyword of a call, at or after position `i`, that `run` does not accept;
      Python raises `TypeError` for it. */
  function FirstUnexpectedKeyword(keywords: seq<string>, i: nat): (r: Option<string>)
    requires i <= |keywords|
    ensures r.Some? ==> r.value !in RunKeywords
    ensures r.Some? ==> exists k :: (i <= k < |keywords| && keywords[k] == r.value
                                      && forall l :: i <= l < k ==> keywords[l] in RunKeywords)
    ensures r.None? ==> forall k :: i <= k < |keywords| ==> keywords[k] in RunKeywords
    decreases |keywords| - i
  {
    if i == |keywords| then None
    else if keywords[i] !in RunKeywords then Some(keywords[i])
    else FirstUnexpectedKeyword(keywords, i + 1)
  }

  /** `pip_install` ... `pip_freeze` as written: options are validated first, then `_pip`
      calls `run` with keywords it does not accept. */
  function PipCallAsWritten(allowed: seq<string>, envPy: string, a: PipAction): (r: Result<Supervisor.Request, CallError>)
    ensures (r.Err? && r.error.Policy?) <==> Validated(a) && exists j :: 0 <= j < |a.options| && !OptionAllowed(allowed, a.options[j])
    ensures r.Err? && r.error.UnexpectedKeyword? ==> r.error.keyword in PipCallKeywords && r.error.keyword !in RunKeywords
    ensures r.Ok? ==> r.value == PipRequest(envPy, a)
  {
    if Validated(a) && ValidateOptions(allowed, a.options).Some? then
      Err(Policy(ValidateOptions(allowed, a.options).value))
    else
      match FirstUnexpectedKeyword(PipCallKeywords, 0)
      case Some(k) => Err(UnexpectedKeyword(k))
      case None => Ok(PipRequest(envPy, a))
  }

  /** As written, no pip operation ever reaches `run`: the call fails with a `TypeError` for
      `soft_verify` unless the policy rejected an option first. */
  lemma PipCallAsWrittenNeverRuns(allowed: seq<string>, envPy: string, a: PipAction)
    ensures PipCallAsWritten(allowed, envPy, a).Err?
    ensures !(Validated(a) && ValidateOptions(allowed, a.options).Some?) ==>
      PipCallAsWritten(allowed, envPy, a) == Err(UnexpectedKeyword("soft_verify"))
  {
    var kw := PipCallKeywords;
    assert kw[0] in RunKeywords && kw[1] in RunKeywords && kw[2] in RunKeywords && kw[3] in RunKeywords;
    assert kw[4] == "soft_verify" && kw[4] !in RunKeywords;
    assert FirstUnexpectedKeyword(kw, 4) == Some("soft_verify");
    assert FirstUnexpectedKeyword(kw, 0) == FirstUnexpectedKeyword(kw, 4);
  }

  /** The run parameters of the corrected `_pip`: the pip argv, the action's timeouts and the
      configured output caps; no success markers, so the default grace never applies. */
  function PipRequest(envPy: string, a: PipAction): (req: Supervisor.Request)
    ensures req.argv == PipArgv(envPy, ActionArgs(a))
    ensures req.maxOut == MaxStdoutChars && req.maxErr == MaxStderrChars
    ensures req.successMarkers == []
  {
    Supervisor.Request(PipArgv(envPy, ActionArgs(a)), ActionTimeout(a), MaxStdoutChars, MaxStderrChars,
                       ActionIdleTimeout(a), [], Supervisor.DefaultSuccessGraceSec)
  }

  /** The corrected call passes only keywords `run` accepts. */
  lemma CorrectedCallAccepted()
    ensures FirstUnexpectedKeyword(CorrectedCallKeywords, 0).None?
  {
  }

  /** A pip operation with the corrected `_pip`: install and uninstall validate their options
      before anything runs; the other actions are not validated. */
  function PipCommand(allowed: seq<string>, envPy: string, a: PipAction): (r: Result<Supervisor.Request, PolicyError>)
    ensures Validated(a) ==>
      (r.Err? <==> exists j :: 0 <= j < |a.options| && !OptionAllowed(allowed, a.options[j]))
    ensures !Validated(a) ==> r.Ok?
    ensures r.Ok? ==> r.value == PipRequest(envPy, a)
    ensures r.Err? ==> Validated(a) && Some(r.error) == ValidateOptions(allowed, a.options)
  {
    if Validated(a) && ValidateOptions(allowed, a.options).Some? then
      Err(ValidateOptions(allowed, a.options).value)
    else
      Ok(PipRequest(envPy, a))
  }

  /** Install and uninstall command lines: the fixed prefix, the action word (and `-y`), the
      options in order, then the packages in order. */
  lemma ArgvLayout(allowed: seq<string>, envPy: string, a: PipAction)
    requires Validated(a) && PipCommand(allowed, envPy, a).Ok?
    ensures var argv := PipCommand(allowed, envPy, a).value.argv;
      var head := PipArgvPrefix(envPy) + (if a.Install? then ["install"] else ["uninstall", "-y"]);
      && head <= argv
      && argv[|head|..|head| + |a.options|] == a.options
      && argv[|head| + |a.options|..] == a.packages
  {
    var head := PipArgvPrefix(envPy) + (if a.Install? then ["install"] else ["uninstall", "-y"]);
    var argv := PipArgv(envPy, ActionArgs(a));
    assert PipCommand(allowed, envPy, a).value.argv == argv;
    assert argv == head + a.options + a.packages;
    assert argv[|head|..|head| + |a.options|] == a.options;
    assert argv[|head| + |a.options|..] == a.packages;
  }

  /** The run parameters per action: installs 1800 s and uninstalls 600 s with no idle
      timeout; list, show, check and freeze 90 s with a 15 s idle timeout. */
  lemma ActionTimeouts(allowed: seq<string>, envPy: string, a: PipAction)
    requires PipCommand(allowed, envPy, a).Ok?
    ensures var req := PipCommand(allowed, envPy, a).value;
      && (a.Install? ==> req.timeoutSec == 1800 && req.idleTimeoutSec == None)
      && (a.Uninstall? ==> req.timeoutSec == 600 && req.idleTimeoutSec == None)
      && (!Validated(a) ==> req.timeoutSec == 90 && req.idleTimeoutSec == Some(15))
  {
  }

  /** Install and uninstall validate only their options: packages are placed in argv
      unchecked, so a short option passed as a package reaches pip. */
  lemma PackagesSkipPolicy(envPy: string)
    ensures var r := PipCommand(AllowedPipOptionPrefixes, envPy, Install(["-r", "x"], []));
      r.Ok? && "-r" in r.value.argv
    ensures var r := PipCommand(AllowedPipOptionPrefixes, envPy, Uninstall(["-r", "x"], []));
      r.Ok? && "-r" in r.value.argv
  {
    var r := PipCommand(AllowedPipOptionPrefixes, envPy, Install(["-r", "x"], []));
    assert r.value.argv[|PipArgvPrefix(envPy)| + 1] == "-r";
    var u := PipCommand(AllowedPipOptionPrefixes, envPy, Uninstall(["-r", "x"], []));
    assert u.value.argv[|PipArgvPrefix(envPy)| + 2] == "-r";
  }

  /** `pip show` passes its packages unvalidated: a short option that install would reject
      reaches pip. */
  lemma ShowSkipsPolicy(envPy: string)
    ensures PipCommand(AllowedPipOptionPrefixes, envPy, Show(["-r", "reqs.txt"])).Ok?
    ensures PipCommand(AllowedPipOptionPrefixes, envPy, Install([], ["-r"])).Err?
  {
    ConfiguredPolicyRejectsShortOptions("-r");
  }
}

=== FILE: supervisor.dfy ===
/** The run supervisor of dev_env_mcp/runner.py (`run`) as a pure state machine.

    The child process, the two reader threads and the monotonic clock are replaced by an
    abstract trace: one `Tick` per iteration of the polling loop, holding what `p.poll()`
    returned, the clock reading, the text the readers had captured so far and the shared
    `last_output` time. The final `p.wait(timeout=5)` becomes a `WaitOutcome`, and the text
    captured at result assembly is the fold of `Capture` over each stream's chunks. */
module Supervisor {
  import opened Common
  import opened Text
  import Capture

  /** The parameters of `run`. A `success_markers` of `None` is the empty sequence: Python
      treats both as "no markers". The default `success_grace_sec` is 5. */
  datatype Request = Request(
    argv: seq<string>,
    timeoutSec: int,
    maxOut: int,
    maxErr: int,
    idleTimeoutSec: Option<int>,
    successMarkers: seq<string>,
    successGraceSec: int)

  const DefaultSuccessGraceSec := 5

  /** Why the supervisor killed the child: "success_grace_kill", "idle_timeout", "timeout"
      or "kill_wait". A natural exit records no reason (`None`). */
  datatype Reason = SuccessGraceKill | IdleTimeout | Timeout | KillWait

  /** What one iteration of the polling loop observes. */
  datatype Tick = Tick(returnCode: Option<int>, now: int, out: string, err: string, lastOutput: int)

  /** The outcome of one iteration: keep polling (with the possibly updated success time),
      stop because the child exited, or kill it for a reason. */
  datatype Verdict = Continue(successTime: Option<int>) | Exited(returnCode: int) | Kill(reason: Reason)

  /** Python's `any(marker in text for marker in markers)`. */
  predicate MarkerSeen(markers: seq<string>, text: string) {
    exists k :: 0 <= k < |markers| && Contains(text, markers[k])
  }

  /** `idle_timeout_sec` is truthy: neither `None` nor `0`. */
  predicate IdleArmed(idle: Option<int>) {
    idle.Some? && idle.value != 0
  }

  /** Success-marker detection: the success time is set on the first tick whose captured
      stdout followed by stderr contains a marker, and is never changed afterwards. */
  function Detect(req: Request, successTime: Option<int>, t: Tick): (st: Option<int>)
    ensures successTime.Some? ==> st == successTime
    ensures successTime.None? ==> (st.Some? <==> MarkerSeen(req.successMarkers, t.out + t.err))
    ensures st.Some? && successTime.None? ==> st.value == t.now
  {
    if |req.successMarkers| > 0 && successTime.None? && MarkerSeen(req.successMarkers, t.out + t.err)
    then Some(t.now)
    else successTime
  }

  /** One iteration of the polling loop. */
  function Step(req: Request, start: int, successTime: Option<int>, t: Tick): (v: Verdict)
    ensures v.Exited? <==> t.returnCode.Some?
    ensures v.Exited? ==> v.returnCode == t.returnCode.value
    ensures v != Kill(KillWait)
    ensures v == Kill(IdleTimeout) ==> IdleArmed(req.idleTimeoutSec)
    ensures v.Continue? ==> t.now - start < req.timeoutSec
    ensures successTime.Some? && v.Continue? ==> v.successTime == successTime
    ensures successTime.None? && req.successGraceSec > 0 ==> v != Kill(SuccessGraceKill)
  {
    if t.returnCode.Some? then Exited(t.returnCode.value)
    else
      var st := Detect(req, successTime, t);
      if st.Some? && t.now - st.value >= req.successGraceSec then Kill(SuccessGraceKill)
      else if IdleArmed(req.idleTimeoutSec) && t.now - t.lastOutput >= req.idleTimeoutSec.value then Kill(IdleTimeout)
      else if t.now - start >= req.timeoutSec then Kill(Timeout)
      else Continue(st)
  }

  /** The priority of a kill reason within one tick; lower wins. */
  function Rank(r: Reason): nat {
    match r
    case SuccessGraceKill => 0
    case IdleTimeout => 1
    case Timeout => 2
    case KillWait => 3
  }

  /** The kill conditions that hold at a tick, each judged on its own. */
  function Due(req: Request, start: int, successTime: Option<int>, t: Tick): set<Reason> {
    var st := Detect(req, successTime, t);
    (if st.Some? && t.now - st.value >= req.successGraceSec then {SuccessGraceKill} else {})
    + (if IdleArmed(req.idleTimeoutSec) && t.now - t.lastOutput >= req.idleTimeoutSec.value then {IdleTimeout} else {})
    + (if t.now - start >= req.timeoutSec then {Timeout} else {})
  }

  /** A tick on which the child is still running kills it exactly when some kill condition
      holds, and then for the highest-priority one of them; so one reason is recorded. */
  lemma StepPriority(req: Request, start: int, successTime: Option<int>, t: Tick)
    requires t.returnCode.None?
    ensures var v := Step(req, start, successTime, t); var due := Due(req, start, successTime, t);
      && (v.Kill? <==> due != {})
      && (v.Kill? ==> v.reason in due && forall r :: r in due ==> Rank(v.reason) <= Rank(r))
  {
  }

  /** How the polling loop ended. */
  datatype Stop = NaturalExit(returnCode: int) | LoopKill(reason: Reason)

  /** The loop stopped at tick `at`, or the trace ran out while it was still polling. */
  datatype LoopEnd = Stopped(at: nat, how: Stop) | Running(successTime: Option<int>)

  /** The polling loop from tick `i` on, with the success time carried so far. */
  function LoopFrom(req: Request, start: int, ticks: seq<Tick>, i: nat, st: Option<int>): (e: LoopEnd)
    requires i <= |ticks|
    ensures e.Stopped? ==> i <= e.at < |ticks|
    ensures e.Stopped? ==> forall j :: i <= j < e.at ==> ticks[j].returnCode.None?
    ensures e.Stopped? ==> (e.how.NaturalExit? <==> ticks[e.at].returnCode.Some?)
    ensures e.Running? ==> forall j :: i <= j < |ticks| ==> ticks[j].returnCode.None?
    decreases |ticks| - i
  {
    if i == |ticks| then Running(st)
    else
      match Step(req, start, st, ticks[i])
      case Continue(st') => LoopFrom(req, start, ticks, i + 1, st')
      case Exited(rc) => Stopped(i, NaturalExit(rc))
      case Kill(r) => Stopped(i, LoopKill(r))
  }

  /** The polling loop of `run`, from the first tick with no success time. */
  function Loop(req: Request, start: int, ticks: seq<Tick>): (e: LoopEnd)
    ensures e.Stopped? ==> e.at < |ticks| && forall j :: 0 <= j < e.at ==> ticks[j].returnCode.None?
    ensures e.Stopped? ==> (e.how.NaturalExit? <==> ticks[e.at].returnCode.Some?)
    ensures e.Running? ==> forall j :: 0 <= j < |ticks| ==> ticks[j].returnCode.None?
  {
    LoopFrom(req, start, ticks, 0, None)
  }

  /** Reference for the success time: the first of the first `n` ticks whose captured text
      contains a marker. */
  function FirstMarkerTick(req: Request, ticks: seq<Tick>, n: nat): (m: Option<nat>)
    requires n <= |ticks|
    ensures m.Some? ==> m.value < n && MarkerSeen(req.successMarkers, ticks[m.value].out + ticks[m.value].err)
    ensures m.Some? ==> forall j :: 0 <= j < m.value ==> !MarkerSeen(req.successMarkers, ticks[j].out + ticks[j].err)
    ensures m.None? ==> forall j :: 0 <= j < n ==> !MarkerSeen(req.successMarkers, ticks[j].out + ticks[j].err)
  {
    if n == 0 then None
    else
      var m := FirstMarkerTick(req, ticks, n - 1);
      if m.Some? then m
      else if MarkerSeen(req.successMarkers, ticks[n - 1].out + ticks[n - 1].err) then Some(n - 1)
      else None
  }

  /** The success time after `n` ticks have been fully processed. */
  function SuccessTimeAt(req: Request, ticks: seq<Tick>, n: nat): Option<int>
    requires n <= |ticks|
  {
    var m := FirstMarkerTick(req, ticks, n);
    if m.Some? then Some(ticks[m.value].now) else None
  }

  /** The loop keeps polling after tick `j`. */
  predicate Continues(req: Request, start: int, ticks: seq<Tick>, j: nat)
    requires j < |ticks|
  {
    Step(req, start, SuccessTimeAt(req, ticks, j), ticks[j]).Continue?
  }

  /** Processing one tick moves the carried success time along the reference. */
  lemma StepTracksMarker(req: Request, start: int, ticks: seq<Tick>, j: nat)
    requires j < |ticks|
    ensures Detect(req, SuccessTimeAt(req, ticks, j), ticks[j]) == SuccessTimeAt(req, ticks, j + 1)
  {
    if |req.successMarkers| == 0 {
      assert !MarkerSeen(req.successMarkers, ticks[j].out + ticks[j].err);
    }
  }

  /** The loop from tick `i` stops at the first later tick that does not continue, with that
      tick's verdict, and otherwise runs out still carrying the reference success time. */
  lemma {:induction false} LoopFromStopsAtFirstDecision(req: Request, start: int, ticks: seq<Tick>, i: nat)
    requires i <= |ticks|
    ensures var e := LoopFrom(req, start, ticks, i, SuccessTimeAt(req, ticks, i));
      && (e.Running? ==> (forall j :: i <= j < |ticks| ==> Continues(req, start, ticks, j))
                         && e.successTime == SuccessTimeAt(req, ticks, |ticks|))
      && (e.Stopped? ==> (forall j :: i <= j < e.at ==> Continues(req, start, ticks, j))
                         && !Continues(req, start, ticks, e.at)
                         && StopMatches(Step(req, start, SuccessTimeAt(req, ticks, e.at), ticks[e.at]), e.how))
    decreases |ticks| - i
  {
    if i < |ticks| {
      var v := Step(req, start, SuccessTimeAt(req, ticks, i), ticks[i]);
      if v.Continue? {
        StepTracksMarker(req, start, ticks, i);
        LoopFromStopsAtFirstDecision(req, start, ticks, i + 1);
      }
    }
  }

  /** A loop stop records the verdict of the tick it stopped on. */
  predicate StopMatches(v: Verdict, how: Stop) {
    match v
    case Continue(_) => false
    case Exited(rc) => how == NaturalExit(rc)
    case Kill(r) => how == LoopKill(r)
  }

  /** The loop stops exactly at the first tick that does not continue. */
  lemma LoopStopsAtFirstDecision(req: Request, start: int, ticks: seq<Tick>)
    ensures var e := Loop(req, start, ticks);
      && (e.Running? <==> forall j :: 0 <= j < |ticks| ==> Continues(req, start, ticks, j))
      && (e.Stopped? ==> (forall j :: 0 <= j < e.at ==> Continues(req, start, ticks, j))
                         && StopMatches(Step(req, start, SuccessTimeAt(req, ticks, e.at), ticks[e.at]), e.how))
  {
    LoopFromStopsAtFirstDecision(req, start, ticks, 0);
  }

  /** Natural exit wins: the loop stops no later than the first tick on which the child has
      exited, it stops there without a kill, and every kill happens while the child runs. */
  lemma NaturalExitFirst(req: Request, start: int, ticks: seq<Tick>)
    ensures var e := Loop(req, start, ticks);
      && (forall j :: 0 <= j < |ticks| && ticks[j].returnCode.Some? ==> e.Stopped? && e.at <= j)
      && (e.Stopped? ==> forall j :: 0 <= j < e.at ==> ticks[j].returnCode.None?)
      && (e.Stopped? ==> (e.how.NaturalExit? <==> ticks[e.at].returnCode.Some?))
      && (e.Stopped? && e.how.NaturalExit? ==> ticks[e.at].returnCode == Some(e.how.returnCode))
  {
    LoopStopsAtFirstDecision(req, start, ticks);
    forall j | 0 <= j < |ticks| && ticks[j].returnCode.Some?
      ensures !Continues(req, start, ticks, j)
    {
    }
  }

  /** The loop stops no later than the first tick at or past the hard timeout. */
  lemma HardTimeoutStops(req: Request, start: int, ticks: seq<Tick>, j: nat)
    requires j < |ticks| && ticks[j].now - start >= req.timeoutSec
    ensures Loop(req, start, ticks).Stopped? && Loop(req, start, ticks).at <= j
  {
    LoopStopsAtFirstDecision(req, start, ticks);
    assert !Continues(req, start, ticks, j);
  }

  /** A success-grace kill happens `success_grace_sec` or more after the first tick whose
      captured text showed a marker, and, when the grace is positive, strictly after it. */
  lemma GraceKillTiming(req: Request, start: int, ticks: seq<Tick>)
    requires Loop(req, start, ticks).Stopped? && Loop(req, start, ticks).how == LoopKill(SuccessGraceKill)
    ensures var i := Loop(req, start, ticks).at; var m := FirstMarkerTick(req, ticks, i + 1);
      && m.Some?
      && ticks[i].now - ticks[m.value].now >= req.successGraceSec
      && (req.successGraceSec > 0 ==> m.value < i)
  {
    var i := Loop(req, start, ticks).at;
    LoopStopsAtFirstDecision(req, start, ticks);
    StepTracksMarker(req, start, ticks, i);
  }

  /** An armed idle timeout stops the loop no later than the first tick that has gone
      `idle_timeout_sec` or more without output. */
  lemma IdleTimeoutStops(req: Request, start: int, ticks: seq<Tick>, j: nat)
    requires IdleArmed(req.idleTimeoutSec)
    requires j < |ticks| && ticks[j].now - ticks[j].lastOutput >= req.idleTimeoutSec.value
    ensures Loop(req, start, ticks).Stopped? && Loop(req, start, ticks).at <= j
  {
    LoopStopsAtFirstDecision(req, start, ticks);
    assert !Continues(req, start, ticks, j);
  }

  /** Once a marker has been seen, the loop stops no later than the first tick that is
      `success_grace_sec` or more after the tick that first showed it. */
  lemma GraceKillBy(req: Request, start: int, ticks: seq<Tick>, j: nat, m: nat)
    requires j < |ticks| && FirstMarkerTick(req, ticks, j + 1) == Some(m)
    requires ticks[j].now - ticks[m].now >= req.successGraceSec
    ensures Loop(req, start, ticks).Stopped? && Loop(req, start, ticks).at <= j
  {
    LoopStopsAtFirstDecision(req, start, ticks);
    StepTracksMarker(req, start, ticks, j);
    assert SuccessTimeAt(req, ticks, j + 1) == Some(ticks[m].now);
    assert !Continues(req, start, ticks, j);
  }

  /** An idle timeout of `None` or `0` never kills. */
  lemma IdleDisabled(req: Request, start: int, ticks: seq<Tick>)
    requires !IdleArmed(req.idleTimeoutSec)
    ensures Loop(req, start, ticks).Stopped? ==> Loop(req, start, ticks).how != LoopKill(IdleTimeout)
  {
    LoopStopsAtFirstDecision(req, start, ticks);
  }

  /** Marker detection scans stdout and stderr concatenated, so a marker can be found that
      neither stream contains on its own. */
  lemma MarkerMaySpanStreams()
    ensures var req := Request(["pip"], 10, 100, 100, None, ["ok"], 0);
      var t := Tick(None, 1, "o", "k", 1);
      && !Contains(t.out, "ok") && !Contains(t.err, "ok")
      && Step(req, 0, None, t) == Kill(SuccessGraceKill)
  {
    assert OccursAt("o" + "k", "ok", 0);
    assert MarkerSeen(["ok"], "o" + "k") by { assert Contains("o" + "k", ["ok"][0]); }
  }

  /** How the final `p.wait(timeout=5)` went: the child's return code arrived in time, or
      it did not and the child was killed and waited for, giving that return code. */
  datatype WaitOutcome = ExitedInTime(returnCode: int) | Unresponsive(returnCode: int)

  /** The state after the final wait. */
  datatype Finish = Finish(returnCode: Option<int>, killed: bool, reason: Option<Reason>)

  /** `reason or "kill_wait"`: escalation keeps an earlier reason and supplies one otherwise. */
  function EscalatedReason(reason: Option<Reason>): (r: Option<Reason>)
    ensures r.Some?
    ensures reason.Some? ==> r == reason
    ensures reason.None? ==> r == Some(KillWait)
  {
    if reason.Some? then reason else Some(KillWait)
  }

  /** The final wait. After a natural exit `wait` returns the code `poll` saw at once; after a
      loop kill the wait outcome decides whether the kill is escalated. */
  function FinalWait(how: Stop, wait: WaitOutcome): (f: Finish)
    ensures f.returnCode.Some?
    ensures how.NaturalExit? ==> f == Finish(Some(how.returnCode), false, None)
    ensures how.LoopKill? ==> f.killed && f.reason == Some(how.reason)
  {
    match how
    case NaturalExit(rc) => Finish(Some(rc), false, None)
    case LoopKill(r) =>
      match wait
      case ExitedInTime(rc) => Finish(Some(rc), true, Some(r))
      case Unresponsive(rc) => Finish(Some(rc), true, EscalatedReason(Some(r)))
  }

  /** What `run` returns. */
  datatype RunResult = RunResult(
    argv: seq<string>,
    exitCode: int,
    stdout: string,
    stderr: string,
    timedOut: bool,
    killed: bool,
    reason: Option<Reason>)

  /** The exit code reported when the child was killed and no return code is available. */
  const NoReturnCode := 124

  /** Result assembly: forced success reports 0 and never a timeout; otherwise the return
      code, or 124 without one; `timed_out` only for the hard timeout. */
  function Assemble(argv: seq<string>, forced: bool, f: Finish, out: string, err: string, maxOut: int, maxErr: int): (r: RunResult)
    ensures forced ==> r.exitCode == 0 && !r.timedOut
    ensures !forced && f.returnCode.Some? ==> r.exitCode == f.returnCode.value
    ensures !forced && f.returnCode.None? ==> r.exitCode == NoReturnCode
    ensures r.timedOut <==> f.reason == Some(Timeout) && !forced
    ensures r.killed == f.killed && r.reason == f.reason
    ensures r.stdout <= out && r.stderr <= err
    ensures 0 <= maxOut ==> r.stdout == Take(out, maxOut)
    ensures 0 <= maxErr ==> r.stderr == Take(err, maxErr)
    ensures maxOut < 0 ==> |r.stdout| == Max(0, |out| + maxOut)
    ensures maxErr < 0 ==> |r.stderr| == Max(0, |err| + maxErr)
  {
    var exitCode := if forced then 0 else if f.returnCode.Some? then f.returnCode.value else NoReturnCode;
    var timedOut := f.reason == Some(Timeout) && !forced;
    RunResult(argv, exitCode, SlicePrefix(out, maxOut), SlicePrefix(err, maxErr), timedOut, f.killed, f.reason)
  }

  /** The final `[:max]` slice leaves a capture that already fits its cap unchanged. */
  lemma SliceKeepsCapture(s: string, maxChars: int)
    requires |s| <= Max(0, maxChars)
    ensures SlicePrefix(s, maxChars) == s
  {
  }

  /** `run`: the polling loop, the final wait and result assembly. `None` when the trace
      ends while the loop is still polling. */
  function Run(req: Request, start: int, ticks: seq<Tick>, wait: WaitOutcome,
               outChunks: seq<Capture.Chunk>, errChunks: seq<Capture.Chunk>): (r: Option<RunResult>)
    ensures r.Some? <==> Loop(req, start, ticks).Stopped?
    ensures r.Some? ==> r.value.argv == req.argv
    ensures r.Some? ==> r.value.stdout == Take(Capture.TextOf(Capture.Consumed(outChunks)), req.maxOut)
    ensures r.Some? ==> r.value.stderr == Take(Capture.TextOf(Capture.Consumed(errChunks)), req.maxErr)
    ensures r.Some? ==> |r.value.stdout| <= Max(0, req.maxOut) && |r.value.stderr| <= Max(0, req.maxErr)
    ensures r.Some? ==> r.value.reason != Some(KillWait)
    ensures r.Some? ==> (r.value.killed <==> r.value.reason.Some?)
    ensures r.Some? ==> (r.value.timedOut <==> r.value.reason == Some(Timeout))
  {
    var e := Loop(req, start, ticks);
    if e.Running? then None
    else
      var f := FinalWait(e.how, wait);
      var forced := e.how == LoopKill(SuccessGraceKill);
      var out := Join(Capture.Capture(outChunks, req.maxOut, start).parts);
      var err := Join(Capture.Capture(errChunks, req.maxErr, start).parts);
      SliceKeepsCapture(out, req.maxOut);
      SliceKeepsCapture(err, req.maxErr);
      LoopNeverKillWait(req, start, ticks);
      Some(Assemble(req.argv, forced, f, out, err, req.maxOut, req.maxErr))
  }

  /** The loop itself never records "kill_wait". */
  lemma LoopNeverKillWait(req: Request, start: int, ticks: seq<Tick>)
    ensures Loop(req, start, ticks).Stopped? ==> Loop(req, start, ticks).how != LoopKill(KillWait)
  {
    LoopStopsAtFirstDecision(req, start, ticks);
  }

  /** The result of a finished run in terms of how the loop ended: a natural exit reports the
      child's own code with no kill and no reason; a loop kill keeps its reason through the
      final wait, reports 0 for a success-grace kill and the child's final code otherwise,
      and is a timeout exactly when the hard timeout fired. */
  lemma RunOutcome(req: Request, start: int, ticks: seq<Tick>, wait: WaitOutcome,
                   outChunks: seq<Capture.Chunk>, errChunks: seq<Capture.Chunk>)
    requires Loop(req, start, ticks).Stopped?
    ensures var how := Loop(req, start, ticks).how; var r := Run(req, start, ticks, wait, outChunks, errChunks).value;
      && (how.NaturalExit? ==>
            r.exitCode == how.returnCode && !r.killed && r.reason.None? && !r.timedOut)
      && (how.LoopKill? ==>
            && r.killed && r.reason == Some(how.reason)
            && r.exitCode == (if how.reason == SuccessGraceKill then 0 else wait.returnCode)
            && (r.timedOut <==> how.reason == Timeout))
  {
  }
}

=== FILE: text.dfy ===
/** The handful of Python `str` operations the modelled code relies on:
    `isspace`, `strip`, `startswith`, `endswith`, `in`, `find` and prefix slicing. */
module Text {
  import opened Common

  /** Some inclusive range `(lo, hi)` of `ranges` holds `n`. */
  predicate InRanges(n: int, ranges: seq<(int, int)>) {
    |ranges| > 0 && ((ranges[0].0 <= n <= ranges[0].1) || InRanges(n, ranges[1..]))
  }

  /** A range listed at position `k` is found by the lookup. */
  lemma {:induction false} InRangesAt(n: int, ranges: seq<(int, int)>, k: nat)
    requires k < |ranges| && ranges[k].0 <= n <= ranges[k].1
    ensures InRanges(n, ranges)
  {
    if k > 0 {
      InRangesAt(n, ranges[1..], k - 1);
    }
  }

  /** A value that no range of `ranges` holds is not found by the lookup. */
  lemma {:induction false} NotInRanges(n: int, ranges: seq<(int, int)>)
    requires forall k :: 0 <= k < |ranges| ==> !(ranges[k].0 <= n <= ranges[k].1)
    ensures !InRanges(n, ranges)
  {
    if |ranges| > 0 {
      assert !(ranges[0].0 <= n <= ranges[0].1);
      forall k | 0 <= k < |ranges| - 1 ensures !(ranges[1..][k].0 <= n <= ranges[1..][k].1) {
        assert ranges[1..][k] == ranges[k + 1];
      }
      NotInRanges(n, ranges[1..]);
    }
  }

  /** The code points Python's `str.isspace()` accepts, as inclusive ranges: U+0009..U+000D,
      U+001C..U+0020, U+0085, U+00A0, U+1680, U+2000..U+200A, U+2028..U+2029, U+202F, U+205F
      and U+3000. */
  const SpaceRanges: seq<(int, int)> := [
    (0x09, 0x0D), (0x1C, 0x20), (0x85, 0x85), (0xA0, 0xA0), (0x1680, 0x1680),
    (0x2000, 0x200A), (0x2028, 0x2029), (0x202F, 0x202F), (0x205F, 0x205F), (0x3000, 0x3000)
  ]

  /** Python's `str.isspace()` for one character. */
  predicate IsSpace(c: char) {
    InRanges(c as int, SpaceRanges)
  }

  /** Printable ASCII other than the space character is not whitespace. */
  lemma PrintableNotSpace(c: char)
    requires 0x21 <= c as int <= 0x7E
    ensures !IsSpace(c)
  {
    NotInRanges(c as int, SpaceRanges);
  }

  predicate AllSpace(s: string) {
    forall k :: 0 <= k < |s| ==> IsSpace(s[k])
  }

  predicate HasNonSpace(s: string) {
    exists k :: 0 <= k < |s| && !IsSpace(s[k])
  }

  predicate StartsWith(s: string, prefix: string) {
    prefix <= s
  }

  predicate EndsWith(s: string, suffix: string) {
    |suffix| <= |s| && s[|s| - |suffix|..] == suffix
  }

  /** `sub` occurs in `s` starting at offset `k`. */
  predicate OccursAt(s: string, sub: string, k: nat) {
    k + |sub| <= |s| && s[k..k + |sub|] == sub
  }

  /** Python's `sub in s`. */
  predicate Contains(s: string, sub: string) {
    exists k: nat :: k <= |s| && OccursAt(s, sub, k)
  }

  /** The first offset at or after `i` where `sub` occurs in `s`. */
  function FindFrom(s: string, sub: string, i: nat): (r: Option<nat>)
    requires i <= |s|
    ensures r.Some? ==> i <= r.value && OccursAt(s, sub, r.value)
    ensures r.Some? ==> forall k: nat :: i <= k < r.value ==> !OccursAt(s, sub, k)
    ensures r.None? ==> forall k: nat :: i <= k ==> !OccursAt(s, sub, k)
    decreases |s| - i
  {
    if i + |sub| > |s| then None
    else if s[i..i + |sub|] == sub then Some(i)
    else FindFrom(s, sub, i + 1)
  }

  /** Python's `s.find(sub)`, as an option: the first occurrence of `sub` in `s`. */
  function Find(s: string, sub: string): (r: Option<nat>)
    ensures r.Some? <==> Contains(s, sub)
    ensures r.Some? ==> OccursAt(s, sub, r.value)
    ensures r.Some? ==> forall k: nat :: k < r.value ==> !OccursAt(s, sub, k)
  {
    FindFrom(s, sub, 0)
  }

  /** An occurrence with none before it is the one `Find` reports. */
  lemma FindFirst(s: string, sub: string, i: nat)
    requires OccursAt(s, sub, i)
    requires forall k: nat :: k < i ==> !OccursAt(s, sub, k)
    ensures Find(s, sub) == Some(i)
  {
    var r := Find(s, sub);
    assert r.Some?;
    assert !(r.value < i);
    assert !(i < r.value);
  }

  /** Python's prefix slice `s[:n]`, including the negative-`n` case that counts from the end. */
  function SlicePrefix<T>(s: seq<T>, n: int): (r: seq<T>)
    ensures r <= s
    ensures 0 <= n ==> |r| == Min(n, |s|)
    ensures n < 0 ==> |r| == Max(0, |s| + n)
  {
    if 0 <= n then s[..Min(n, |s|)] else s[..Max(0, |s| + n)]
  }

  /** The first `n` elements of `s`, or all of it, or nothing when `n` is not positive. */
  function Take<T>(s: seq<T>, n: int): seq<T> {
    s[..if n <= 0 then 0 else Min(n, |s|)]
  }

  /** The concatenation of `parts`: Python's `"".join(parts)`. */
  function Join(parts: seq<string>): (r: string)
    ensures |parts| == 0 ==> r == []
  {
    if |parts| == 0 then [] else Join(parts[..|parts| - 1]) + parts[|parts| - 1]
  }

  lemma JoinAppend(parts: seq<string>, p: string)
    ensures Join(parts + [p]) == Join(parts) + p
  {
    assert (parts + [p])[..|parts|] == parts;
  }

  /** The first position at or after `i` that does not hold whitespace, or `|s|`. */
  function SpaceEnd(s: string, i: nat): (j: nat)
    requires i <= |s|
    ensures i <= j <= |s|
    ensures forall k :: i <= k < j ==> IsSpace(s[k])
    ensures j < |s| ==> !IsSpace(s[j])
    decreases |s| - i
  {
    if i == |s| || !IsSpace(s[i]) then i else SpaceEnd(s, i + 1)
  }

  /** The last position before `e` that does not hold whitespace, plus one; or 0. */
  function SpaceStart(s: string, e: nat): (j: nat)
    requires e <= |s|
    ensures j <= e
    ensures forall k :: j <= k < e ==> IsSpace(s[k])
    ensures 0 < j ==> !IsSpace(s[j - 1])
    decreases e
  {
    if e == 0 || !IsSpace(s[e - 1]) then e else SpaceStart(s, e - 1)
  }

  /** Number of leading whitespace characters of `s`. */
  function LeadingSpace(s: string): (n: nat)
    ensures n <= |s|
    ensures AllSpace(s[..n])
    ensures n < |s| ==> !IsSpace(s[n])
  {
    var n := SpaceEnd(s, 0);
    assert AllSpace(s[..n]) by {
      forall k | 0 <= k < n ensures IsSpace(s[..n][k]) {
        assert s[..n][k] == s[k];
      }
    }
    n
  }

  /** Number of trailing whitespace characters of `s`. */
  function TrailingSpace(s: string): (n: nat)
    ensures n <= |s|
    ensures AllSpace(s[|s| - n..])
    ensures n < |s| ==> !IsSpace(s[|s| - 1 - n])
  {
    var j := SpaceStart(s, |s|);
    assert AllSpace(s[j..]) by {
      forall k | 0 <= k < |s| - j ensures IsSpace(s[j..][k]) {
        assert s[j..][k] == s[j + k];
      }
    }
    |s| - j
  }

  /** `r` is `s` with exactly its leading and trailing whitespace removed: a slice of `s`
      starting after the leading whitespace, with only whitespace after it, and neither
      starting nor ending with whitespace. */
  predicate StrippedOf(r: string, s: string) {
    var i := LeadingSpace(s);
    && i + |r| <= |s|
    && r == s[i..i + |r|]
    && AllSpace(s[..i]) && AllSpace(s[i + |r|..])
    && (r == [] || (!IsSpace(r[0]) && !IsSpace(r[|r| - 1])))
  }

  /** Only one text is `s` stripped: `StrippedOf` characterises `Strip` completely. */
  lemma StrippedOfUnique(r: string, s: string)
    requires StrippedOf(r, s)
    ensures r == Strip(s)
  {
  }

  /** Python's `s.strip()`: `s` without its leading and trailing whitespace. */
  function Strip(s: string): (r: string)
    ensures |r| + LeadingSpace(s) <= |s|
    ensures r == s[LeadingSpace(s)..LeadingSpace(s) + |r|]
    ensures AllSpace(s[..LeadingSpace(s)]) && AllSpace(s[LeadingSpace(s) + |r|..])
    ensures r == [] || (!IsSpace(r[0]) && !IsSpace(r[|r| - 1]))
    ensures r == [] <==> AllSpace(s)
  {
    var i := LeadingSpace(s);
    if i == |s| then
      assert s[..i] == s;
      []
    else
      var t := s[i..];
      var m := TrailingSpace(t);
      assert t[0] == s[i];
      assert m < |t|;
      var r := t[..|t| - m];
      assert t[|r|..] == s[i + |r|..];
      assert r[0] == s[i];
      assert r[|r| - 1] == t[|t| - 1 - m];
      assert !AllSpace(s) by { assert !IsSpace(s[i]); }
      r
  }

  /** Stripping is determined by where the non-whitespace text sits: surrounding any text that
      begins and ends with a non-whitespace character by whitespace and stripping gives it back. */
  lemma StripSurrounded(lead: string, x: string, trail: string)
    requires AllSpace(lead) && AllSpace(trail)
    requires x == [] || (!IsSpace(x[0]) && !IsSpace(x[|x| - 1]))
    ensures Strip(lead + x + trail) == x
  {
    var s := lead + x + trail;
    if x == [] {
      assert AllSpace(s) by {
        forall k | 0 <= k < |s| ensures IsSpace(s[k]) {
          if k < |lead| { assert s[k] == lead[k]; } else { assert s[k] == trail[k - |lead|]; }
        }
      }
    } else {
      assert s[..|lead|] == lead;
      assert s[|lead| + |x|..] == trail;
      assert s[|lead|..|lead| + |x|] == x;
      StripAt(s, |lead|, |x|);
    }
  }

  /** The stripped text of `s` is `s[i..i + n]` when that slice begins and ends with a
      non-whitespace character and only whitespace surrounds it. */
  lemma StripAt(s: string, i: nat, n: nat)
    requires 0 < n && i + n <= |s|
    requires AllSpace(s[..i]) && AllSpace(s[i + n..])
    requires !IsSpace(s[i]) && !IsSpace(s[i + n - 1])
    ensures Strip(s) == s[i..i + n]
  {
    var l := LeadingSpace(s);
    forall j | 0 <= j < i ensures IsSpace(s[j]) {
      assert s[j] == s[..i][j];
    }
    forall j | 0 <= j < l ensures IsSpace(s[j]) {
      assert s[j] == s[..l][j];
    }
    assert l == i;
    var r := Strip(s);
    assert !AllSpace(s) by { assert !IsSpace(s[i]); }
    forall j | i + |r| <= j < |s| ensures IsSpace(s[j]) {
      assert s[j] == s[i + |r|..][j - i - |r|];
    }
    assert |r| >= n;
    forall j | i + n <= j < |s| ensures IsSpace(s[j]) {
      assert s[j] == s[i + n..][j - i - n];
    }
    assert s[i + |r| - 1] == r[|r| - 1];
    assert |r| <= n;
  }

  /** `strip().endswith(suffix)` for a non-empty suffix without surrounding whitespace holds
      exactly when `s` ends with `suffix` followed by whitespace only. */
  lemma StripEndsWith(s: string, c: char)
    requires !IsSpace(c)
    ensures EndsWith(Strip(s), [c]) <==> exists k :: 0 <= k < |s| && s[k] == c && AllSpace(s[k + 1..])
  {
    var i := LeadingSpace(s);
    var r := Strip(s);
    if EndsWith(r, [c]) {
      var k := i + |r| - 1;
      assert s[k] == r[|r| - 1] == c;
      assert s[k + 1..] == s[i + |r|..];
    }
    if exists k :: 0 <= k < |s| && s[k] == c && AllSpace(s[k + 1..]) {
      var k :| 0 <= k < |s| && s[k] == c && AllSpace(s[k + 1..]);
      assert !AllSpace(s) by { assert !IsSpace(s[k]); }
      var e := i + |r| - 1;
      // both k and e are the last non-whitespace position of s
      forall j | i + |r| <= j < |s| ensures IsSpace(s[j]) {
        assert s[j] == s[i + |r|..][j - i - |r|];
      }
      assert k <= e;
      forall j | k < j < |s| ensures IsSpace(s[j]) {
        assert s[j] == s[k + 1..][j - k - 1];
      }
      assert s[e] == r[|r| - 1];
      assert e <= k;
      assert r[|r| - 1] == s[e];
    }
  }
}

=== FILE: workspace.dfy ===
/** Workspace path logic of dev_env_mcp/workspace.py: finding the workspace root above a
    start directory and resolving a user path while keeping it inside the root.

    Paths are absolute POSIX paths written as their components below `/`; resolution is
    lexical (`.` and `..` are folded, symbolic links are not followed), and the filesystem
    probes (`is_file`, "contains pyproject.toml or .git") are parameters. */
module Workspace {
  import opened Common
  import opened Text

  /** An absolute path: the components below `/`, so `[]` is `/` itself. */
  type Path = seq<string>

  /** A path with no empty, `.` or `..` component, as `resolve()` produces. */
  predicate IsNormal(p: Path) {
    forall k :: 0 <= k < |p| ==> p[k] != "" && p[k] != "." && p[k] != ".."
  }

  /** Fold components onto a normal path: empty and `.` components vanish, `..` drops the
      last component (and stays at `/`), any other component is appended. */
  function NormalizeOnto(acc: Path, comps: seq<string>): (p: Path)
    requires IsNormal(acc)
    ensures IsNormal(p)
    decreases |comps|
  {
    if |comps| == 0 then acc
    else
      var c := comps[0];
      var acc' :=
        if c == "" || c == "." then acc
        else if c == ".." then (if |acc| == 0 then acc else acc[..|acc| - 1])
        else acc + [c];
      NormalizeOnto(acc', comps[1..])
  }

  /** Lexical `resolve()` of an absolute path given by its components. */
  function Normalize(comps: seq<string>): (p: Path)
    ensures IsNormal(p)
  {
    NormalizeOnto([], comps)
  }

  /** Folding components that are already normal appends them unchanged. */
  lemma {:induction false} NormalizeOntoNormal(acc: Path, comps: seq<string>)
    requires IsNormal(acc) && IsNormal(comps)
    ensures NormalizeOnto(acc, comps) == acc + comps
    decreases |comps|
  {
    if |comps| > 0 {
      assert IsNormal(acc + [comps[0]]);
      assert IsNormal(comps[1..]);
      NormalizeOntoNormal(acc + [comps[0]], comps[1..]);
      assert acc + [comps[0]] + comps[1..] == acc + comps;
    }
  }

  /** Normalising is idempotent: a normal path is its own normal form. */
  lemma NormalizeFixesNormal(p: Path)
    requires IsNormal(p)
    ensures Normalize(p) == p
  {
    NormalizeOntoNormal([], p);
  }

  /** One component at a time: empty and `.` leave the path, `..` goes to the parent (and
      stays at `/`), any other component is appended. */
  lemma NormalizeOntoStep(acc: Path, c: string)
    requires IsNormal(acc)
    ensures c == "" || c == "." ==> NormalizeOnto(acc, [c]) == acc
    ensures c == ".." ==> NormalizeOnto(acc, [c]) == (if |acc| == 0 then [] else acc[..|acc| - 1])
    ensures c != "" && c != "." && c != ".." ==> NormalizeOnto(acc, [c]) == acc + [c]
  {
    assert [c][1..] == [];
  }

  /** Descending into a component and climbing back out returns to where it started. */
  lemma DownAndUp(acc: Path, c: string)
    requires IsNormal(acc) && c != "" && c != "." && c != ".."
    ensures NormalizeOnto(acc, [c, ".."]) == acc
  {
    assert [c, ".."][0] == c && [c, ".."][1..] == [".."];
    NormalizeOntoStep(acc + [c], "..");
    assert (acc + [c])[..|acc|] == acc;
  }

  /** Folding a concatenation folds the second part onto the result of the first. */
  lemma {:induction false} NormalizeOntoAppend(acc: Path, a: seq<string>, b: seq<string>)
    requires IsNormal(acc)
    ensures NormalizeOnto(acc, a + b) == NormalizeOnto(NormalizeOnto(acc, a), b)
    decreases |a|
  {
    if |a| == 0 {
      assert a + b == b;
    } else {
      assert (a + b)[0] == a[0];
      assert (a + b)[1..] == a[1..] + b;
      var c := a[0];
      var acc' :=
        if c == "" || c == "." then acc
        else if c == ".." then (if |acc| == 0 then acc else acc[..|acc| - 1])
        else acc + [c];
      NormalizeOntoAppend(acc', a[1..], b);
    }
  }

  /** Python's `s.split("/")`. */
  function SplitSlash(s: string): (parts: seq<string>)
    ensures |parts| > 0
    ensures forall k :: 0 <= k < |parts| ==> '/' !in parts[k]
    decreases |s|
  {
    match Find(s, "/")
    case None =>
      assert forall j :: 0 <= j < |s| ==> s[j] != '/' by {
        forall j | 0 <= j < |s| ensures s[j] != '/' {
          assert !OccursAt(s, "/", j);
          assert s[j..j + 1] == [s[j]];
        }
      }
      [s]
    case Some(i) =>
      assert forall j :: 0 <= j < i ==> s[j] != '/' by {
        forall j | 0 <= j < i ensures s[j] != '/' {
          assert !OccursAt(s, "/", j);
          assert s[j..j + 1] == [s[j]];
        }
      }
      [s[..i]] + SplitSlash(s[i + 1..])
  }

  /** Text without `/` splits into itself. */
  lemma SplitWithoutSlash(s: string)
    requires forall j :: 0 <= j < |s| ==> s[j] != '/'
    ensures SplitSlash(s) == [s]
  {
    forall k: nat ensures !OccursAt(s, "/", k) {
      if k + 1 <= |s| {
        assert s[k..k + 1] == [s[k]];
      }
    }
  }

  /** Components joined with `/`: the inverse of splitting. */
  function JoinSlash(parts: seq<string>): string
    requires |parts| > 0
  {
    if |parts| == 1 then parts[0] else parts[0] + "/" + JoinSlash(parts[1..])
  }

  /** Splitting on `/` loses nothing: joining the pieces back gives the text. */
  lemma {:induction false} SplitSlashRoundTrip(s: string)
    ensures JoinSlash(SplitSlash(s)) == s
    decreases |s|
  {
    match Find(s, "/")
    case None =>
      assert SplitSlash(s) == [s];
    case Some(i) =>
      SplitAtSlash(s, i);
      SplitSlashRoundTrip(s[i + 1..]);
      JoinSlashCons(s[..i], SplitSlash(s[i + 1..]));
  }

  /** The first `/` at `i` splits off the first piece. */
  lemma SplitAtSlash(s: string, i: nat)
    requires Find(s, "/") == Some(i)
    ensures i < |s| && SplitSlash(s) == [s[..i]] + SplitSlash(s[i + 1..])
    ensures s == s[..i] + "/" + s[i + 1..]
  {
    assert OccursAt(s, "/", i);
    SlashAt(s, i);
  }

  /** A `/` at `i` sits between the text before and after it. */
  lemma SlashAt(s: string, i: nat)
    requires i < |s| && s[i..i + 1] == "/"
    ensures s == s[..i] + "/" + s[i + 1..]
  {
    assert s[i] == '/';
  }

  /** Joining a piece in front of further pieces puts one `/` between them. */
  lemma JoinSlashCons(head: string, parts: seq<string>)
    requires |parts| > 0
    ensures JoinSlash([head] + parts) == head + "/" + JoinSlash(parts)
  {
    assert ([head] + parts)[1..] == parts;
  }

  /** The components pathlib keeps: empty and `.` pieces are dropped, `..` is kept. */
  function Meaningful(parts: seq<string>): (r: seq<string>)
    ensures |r| <= |parts|
    ensures forall k :: 0 <= k < |r| ==> r[k] != "" && r[k] != "."
    ensures forall k :: 0 <= k < |r| ==> r[k] in parts
    ensures forall x :: x in parts && x != "" && x != "." ==> x in r
  {
    KeptFacts(parts);
    Kept(parts)
  }

  /** What one piece contributes: nothing when it is empty or `.`, else itself. */
  function Keep(x: string): seq<string> {
    if x == "" || x == "." then [] else [x]
  }

  /** The pieces kept, one by one in order. */
  function Kept(parts: seq<string>): seq<string> {
    if |parts| == 0 then [] else Keep(parts[0]) + Kept(parts[1..])
  }

  /** Exactly the pieces that are neither empty nor `.` are kept. */
  lemma {:induction false} KeptFacts(parts: seq<string>)
    ensures |Kept(parts)| <= |parts|
    ensures forall k :: 0 <= k < |Kept(parts)| ==> Kept(parts)[k] != "" && Kept(parts)[k] != "."
    ensures forall x :: x in Kept(parts) <==> x in parts && x != "" && x != "."
  {
    if |parts| > 0 {
      var rest := parts[1..];
      KeptFacts(rest);
      assert parts == [parts[0]] + rest;
      var r := Kept(parts);
      assert r == Keep(parts[0]) + Kept(rest);
      forall k | 0 <= k < |r| ensures r[k] != "" && r[k] != "." {
        if k >= |Keep(parts[0])| {
          assert r[k] == Kept(rest)[k - |Keep(parts[0])|];
        }
      }
    }
  }

  /** The filter over a list headed by `x`. */
  lemma MeaningfulCons(x: string, rest: seq<string>)
    ensures Meaningful([x] + rest) == Keep(x) + Meaningful(rest)
  {
    assert ([x] + rest)[0] == x;
    assert ([x] + rest)[1..] == rest;
  }

  /** Components are filtered one by one, so filtering distributes over concatenation and
      keeps the order of what it keeps. */
  lemma MeaningfulAppend(a: seq<string>, b: seq<string>)
    ensures Meaningful(a + b) == Meaningful(a) + Meaningful(b)
  {
    KeptAppend(a, b);
  }

  lemma {:induction false} KeptAppend(a: seq<string>, b: seq<string>)
    ensures Kept(a + b) == Kept(a) + Kept(b)
    decreases |a|
  {
    if |a| == 0 {
      assert a + b == b;
    } else {
      var x, t := a[0], a[1..];
      assert (a + b)[0] == x;
      assert (a + b)[1..] == t + b;
      KeptAppend(t, b);
      assert Keep(x) + (Kept(t) + Kept(b)) == (Keep(x) + Kept(t)) + Kept(b);
    }
  }

  /** One piece is kept exactly when it is neither empty nor `.`. */
  lemma MeaningfulOne(x: string)
    ensures Meaningful([x]) == (if x == "" || x == "." then [] else [x])
  {
    MeaningfulCons(x, []);
    assert [x] + [] == [x];
  }

  /** Components that are all kept pass unchanged. */
  lemma {:induction false} MeaningfulKeeps(cs: seq<string>)
    requires forall k :: 0 <= k < |cs| ==> cs[k] != "" && cs[k] != "."
    ensures Meaningful(cs) == cs
    decreases |cs|
  {
    if |cs| > 0 {
      MeaningfulKeeps(cs[1..]);
      assert cs == [cs[0]] + cs[1..];
    }
  }

  /** `Path(user_path)`: absolute when it starts with `/`, and its kept components. */
  datatype UserPath = UserPath(absolute: bool, parts: seq<string>)

  function ParsePath(s: string): (u: UserPath)
    ensures u.absolute <==> StartsWith(s, "/")
    ensures forall k :: 0 <= k < |u.parts| ==> u.parts[k] != "" && u.parts[k] != "." && '/' !in u.parts[k]
    ensures |u.parts| <= |SplitSlash(s)|
  {
    UserPath(|s| > 0 && s[0] == '/', Meaningful(SplitSlash(s)))
  }

  /** The first `/` of `h + "/" + t` for a slash-free `h` is the one after `h`. */
  lemma FirstSlashAfter(h: string, t: string)
    requires '/' !in h
    ensures var s := h + "/" + t; SplitSlash(s) == [h] + SplitSlash(t)
  {
    var s := h + "/" + t;
    forall k: nat | k < |h| ensures !OccursAt(s, "/", k) {
      assert s[k..k + 1] == [h[k]];
      assert h[k] in h;
    }
    assert s[|h|..|h| + 1] == "/";
    FindFirst(s, "/", |h|);
    SplitAtSlash(s, |h|);
    assert s[..|h|] == h;
    assert s[|h| + 1..] == t;
  }

  /** Splitting components joined with `/` gives the components back. */
  lemma {:induction false} SplitJoinSlash(cs: seq<string>)
    requires |cs| > 0
    requires forall k :: 0 <= k < |cs| ==> '/' !in cs[k]
    ensures SplitSlash(JoinSlash(cs)) == cs
    decreases |cs|
  {
    if |cs| == 1 {
      var h := cs[0];
      forall j | 0 <= j < |h| ensures h[j] != '/' {
        assert h[j] in h;
      }
      SplitWithoutSlash(h);
    } else {
      FirstSlashAfter(cs[0], JoinSlash(cs[1..]));
      SplitJoinSlash(cs[1..]);
      assert cs == [cs[0]] + cs[1..];
    }
  }

  /** Parsing meaningful components joined by `/` recovers them as a relative path. */
  lemma ParsePathRoundTrip(cs: seq<string>)
    requires |cs| > 0
    requires forall k :: 0 <= k < |cs| ==> cs[k] != "" && cs[k] != "." && '/' !in cs[k]
    ensures ParsePath(JoinSlash(cs)) == UserPath(false, cs)
  {
    SplitJoinSlash(cs);
    MeaningfulKeeps(cs);
    assert JoinSlash(cs)[0] == cs[0][0];
  }

  /** With a leading `/` the same components make an absolute path. */
  lemma ParseAbsoluteRoundTrip(cs: seq<string>)
    requires |cs| > 0
    requires forall k :: 0 <= k < |cs| ==> cs[k] != "" && cs[k] != "." && '/' !in cs[k]
    ensures ParsePath("/" + JoinSlash(cs)) == UserPath(true, cs)
  {
    var j := JoinSlash(cs);
    FirstSlashAfter("", j);
    assert "" + "/" + j == "/" + j;
    SplitJoinSlash(cs);
    MeaningfulAppend([""], cs);
    MeaningfulOne("");
    MeaningfulKeeps(cs);
  }

  /** `WorkspaceError("Path must be inside workspace root: ...")`. */
  datatype WorkspaceError = OutsideRoot(root: Path)

  /** The path `resolve_in_workspace` checks: a relative user path joined to the resolved
      root, an absolute one on its own, then normalised. */
  function Target(base: Path, u: UserPath): (p: Path)
    requires IsNormal(base)
    ensures IsNormal(p)
    ensures u.absolute ==> p == Normalize(u.parts)
    ensures !u.absolute ==> p == Normalize(base + u.parts)
  {
    NormalizeOntoAppend([], base, u.parts);
    NormalizeFixesNormal(base);
    if u.absolute then Normalize(u.parts) else NormalizeOnto(base, u.parts)
  }

  /** `resolve_in_workspace`: the resolved path when it is the root or lies below it,
      otherwise the workspace error. */
  function ResolveInWorkspace(root: seq<string>, userPath: string): (r: Result<Path, WorkspaceError>)
    ensures var base := Normalize(root); var u := ParsePath(userPath);
      && (r.Ok? <==> base <= Target(base, u))
      && (r.Ok? ==> r.value == Target(base, u) && IsNormal(r.value))
      && (r.Err? ==> r.error == OutsideRoot(base))
  {
    var base := Normalize(root);
    var resolved := Target(base, ParsePath(userPath));
    if resolved != base && !(base < resolved) then Err(OutsideRoot(base)) else Ok(resolved)
  }

  /** An absolute path resolves on its own: the root plays no part in where it leads. */
  lemma AbsoluteIgnoresRoot(base: Path, other: Path, u: UserPath)
    requires IsNormal(base) && IsNormal(other) && u.absolute
    ensures Target(base, u) == Target(other, u)
  {
  }

  /** An absolute path that does not lead to or below the root is refused. */
  lemma AbsoluteOutsideRefused(root: seq<string>, userPath: string)
    requires ParsePath(userPath).absolute
    requires !(Normalize(root) <= Normalize(ParsePath(userPath).parts))
    ensures ResolveInWorkspace(root, userPath) == Err(OutsideRoot(Normalize(root)))
  {
  }

  /** A top-level absolute path such as `/etc` is refused under a different top-level root
      such as `/w`. */
  lemma SiblingOutside(w: string, x: string)
    requires w != "" && w != "." && w != ".." && '/' !in w
    requires x != "" && x != "." && x != ".." && '/' !in x && x != w
    ensures ResolveInWorkspace([w], "/" + x) == Err(OutsideRoot([w]))
  {
    ParseAbsoluteRoundTrip([x]);
    assert JoinSlash([x]) == x;
    NormalizeFixesNormal([w]);
    NormalizeFixesNormal([x]);
    assert !([w] <= [x]) by { assert [x][0] == x; }
    AbsoluteOutsideRefused([w], "/" + x);
  }

  /** `x/..` resolves to the root itself and is accepted. */
  lemma DownAndUpIsRoot(root: seq<string>, x: string)
    requires x != "" && x != "." && x != ".." && '/' !in x
    ensures ResolveInWorkspace(root, x + "/..") == Ok(Normalize(root))
  {
    var cs := [x, ".."];
    assert JoinSlash(cs) == x + "/.." by {
      assert [x] + [".."] == cs;
      JoinSlashCons(x, [".."]);
      assert x + "/" + ".." == x + ("/" + "..");
      assert "/" + ".." == "/..";
    }
    ParsePathRoundTrip(cs);
    var base := Normalize(root);
    DownAndUp(base, x);
    assert Target(base, ParsePath(x + "/..")) == NormalizeOnto(base, cs);
  }

  /** A relative path is joined to the root before normalising: it resolves as the
      normalisation of the root's components followed by its own. */
  lemma RelativeJoinedToRoot(root: seq<string>, userPath: string)
    requires !ParsePath(userPath).absolute
    ensures Target(Normalize(root), ParsePath(userPath)) == Normalize(root + ParsePath(userPath).parts)
  {
    NormalizeOntoAppend([], root, ParsePath(userPath).parts);
  }

  /** A relative path without `..` always stays inside: it resolves to the root followed by
      its components. */
  lemma DescendingPathInside(root: seq<string>, userPath: string)
    requires !ParsePath(userPath).absolute
    requires forall k :: 0 <= k < |ParsePath(userPath).parts| ==> ParsePath(userPath).parts[k] != ".."
    ensures ResolveInWorkspace(root, userPath) == Ok(Normalize(root) + ParsePath(userPath).parts)
  {
    NormalizeOntoNormal(Normalize(root), ParsePath(userPath).parts);
  }

  /** `.` names the root itself, which is accepted. */
  lemma DotIsRoot(root: seq<string>)
    ensures ResolveInWorkspace(root, ".") == Ok(Normalize(root))
  {
    SplitWithoutSlash(".");
    assert Meaningful(["."]) == [] by { assert ["."][1..] == []; }
  }

  /** `..` escapes any root other than `/` and is refused. */
  lemma ParentEscapes(root: seq<string>)
    requires Normalize(root) != []
    ensures ResolveInWorkspace(root, "..") == Err(OutsideRoot(Normalize(root)))
  {
    SplitWithoutSlash("..");
    assert Meaningful([".."]) == [".."] by { assert [".."][1..] == []; }
    var base := Normalize(root);
    assert NormalizeOnto(base, [".."]) == base[..|base| - 1] by { assert [".."][1..] == []; }
  }

  /** Under the filesystem root `/` every path is inside. */
  lemma SlashContainsEverything(root: seq<string>, userPath: string)
    requires Normalize(root) == []
    ensures ResolveInWorkspace(root, userPath).Ok?
  {
  }

  /** The parent directory; `/` is its own parent. */
  function Parent(p: Path): (q: Path)
    ensures q <= p
    ensures |p| > 0 ==> |q| == |p| - 1
  {
    if |p| == 0 then p else p[..|p| - 1]
  }

  /** The nearest of `p` and its ancestors that has a marker. */
  function NearestMarked(p: Path, hasMarker: Path -> bool): (r: Option<Path>)
    ensures r.Some? ==> r.value <= p && hasMarker(r.value)
    ensures r.Some? ==> forall k :: |r.value| < k <= |p| ==> !hasMarker(p[..k])
    ensures r.None? ==> forall k :: 0 <= k <= |p| ==> !hasMarker(p[..k])
    decreases |p|
  {
    if hasMarker(p) then
      assert p[..|p|] == p;
      Some(p)
    else if |p| == 0 then
      assert p[..0] == p;
      None
    else
      var q := p[..|p| - 1];
      assert forall k :: 0 <= k < |p| ==> q[..k] == p[..k];
      assert p[..|p|] == p;
      NearestMarked(q, hasMarker)
  }

  /** The directory the search starts from: the resolved start, or its parent for a file. */
  function StartDir(start: seq<string>, isFile: Path -> bool): (d: Path)
    ensures IsNormal(d)
    ensures d <= Normalize(start)
    ensures d != Normalize(start) ==> isFile(Normalize(start))
    ensures isFile(Normalize(start)) && |Normalize(start)| > 0 ==> |d| == |Normalize(start)| - 1
  {
    var s := Normalize(start);
    if isFile(s) then Parent(s) else s
  }

  /** `find_workspace_root`: the start directory or an ancestor of it; the nearest one
      with a marker when there is one, else the start directory itself. */
  function FindWorkspaceRoot(start: seq<string>, isFile: Path -> bool, hasMarker: Path -> bool): (r: Path)
    ensures r <= StartDir(start, isFile)
    ensures var s := StartDir(start, isFile);
      (exists k :: 0 <= k <= |s| && hasMarker(s[..k])) ==>
        hasMarker(r) && forall k :: |r| < k <= |s| ==> !hasMarker(s[..k])
    ensures var s := StartDir(start, isFile);
      (forall k :: 0 <= k <= |s| ==> !hasMarker(s[..k])) ==> r == s
  {
    var s := StartDir(start, isFile);
    match NearestMarked(s, hasMarker)
    case Some(p) =>
      assert s[..|p|] == p;
      p
    case None => s
  }
}
